=== FILE: README.md ===
# FluidNC command channels: WebSocket multiplexer and file replay

This project models two of FluidNC's command sources, the channels that feed
lines and realtime characters into the firmware's single command stream.
They are written as pure state machines over immutable records.

- **`WebUI::WSChannel`** (module `WSChannel`) is one WebSocket client seen
  as a channel. It has a single-slot realtime character (`-1` when empty), an
  outbound line buffer, an inbound byte queue and a dead flag. The module
  covers `read`, `write` with its three send-readiness outcomes, `pushRT` and
  `push`.
- **`WebUI::WSChannels`** (module `WSChannels`) is the multiplexer. It holds
  the map from client slot to channel, the list of browser clients, the
  last-used channel and the channel registry. The module covers
  `getWSChannel` with its legacy fallback, both `removeChannel` overloads,
  `sendTXT`, `sendError`, `runGCode` with its realtime/text classification,
  `sendPing`, and `handleEvent` (connect, disconnect, inbound data).
- **`WSChannelsInvariant`** proves that every multiplexer operation keeps the
  indices consistent with each other and with the registry (`WSChannels.Valid`).
- **`InputFile`** is a stored job file replayed line by line. It covers
  `readLine` (strip CR, split on LF, length bound, end of file distinct from
  an empty line), the `ack`/`pollLine` flow control, `stopJob`, and the
  destructor's clearing of the shared progress slot.
- **`Bytes`** is the shared vocabulary: unsigned bytes, CR removal, C-string
  truncation at NUL, and decimal rendering as `std::to_string` writes it.

How the outside world appears in the model:

- Pointers are channel ids: natural numbers that index a heap map which never
  shrinks.
- The registry's `kill` removes the id from a `registry` set and, for the
  file job, sets a `killed` flag.
- The socket server's answers (`canSend`, and the success of `sendBIN` or
  `sendTXT`) are inputs to each step. The calls made on the server are
  returned as a trace of `ServerCall`s.
- `is_realtime_command` is an arbitrary predicate `isRT` passed in.
- The file is a byte sequence with a cursor.
- The progress string is kept as the values it is formatted from.
- Operator notifications are a list of `Notice`s.

## Model

| member | source | states |
|---|---|---|
| Bytes.Strip | FluidNC/src/InputFile.cpp:24-26 | The bytes a read keeps are no more than those read, and no carriage return survives |
| Bytes.StripMembers | FluidNC/src/InputFile.cpp:24-30 | A byte occurs in what a read keeps iff it occurs in what was read and is not a carriage return |
| Bytes.StripCounts | FluidNC/src/InputFile.cpp:24-30 | Every byte other than a carriage return is kept as many times as it was read: nothing else is lost or invented |
| Bytes.StripAppend | FluidNC/src/InputFile.cpp:20-31 | Stripping two stretches read one after the other gives the two stripped stretches in order, so the kept bytes keep their order |
| Bytes.StripNoCR | FluidNC/src/InputFile.cpp:24-30 | A stretch without carriage returns is stored unchanged |
| Bytes.UpToNul | FluidNC/src/WebUI/WSChannel.cpp:88-91 | The bytes queued from a payload are its prefix up to, and not including, the first NUL; the whole payload when it has none |
| Bytes.DecimalString | FluidNC/src/WebUI/WSChannel.cpp:229 | The rendering of a number is a non-empty run of decimal digits, one digit exactly for values below ten |
| Bytes.DecimalRoundTrip | FluidNC/src/WebUI/WSChannel.cpp:200 | Parsing the rendered digits gives back the number, so identification and heartbeat texts carry the exact value |
| Bytes.DecimalInjective | FluidNC/src/WebUI/WSChannel.cpp:234 | Different channel identities render to different texts |
| WSChannel.Init | FluidNC/src/WebUI/WSChannel.cpp:16 | A new channel is alive, bound to its client slot, with an empty realtime slot, line buffer and queue |
| WSChannel.Read | FluidNC/src/WebUI/WSChannel.cpp:18-29 | A dead channel yields -1 and is unchanged; a live one yields the pending realtime character (or -1) and empties the slot, touching nothing else |
| WSChannel.PushRT | FluidNC/src/WebUI/WSChannel.cpp:82 | The realtime slot holds the pushed byte and nothing else changes |
| WSChannel.Push | FluidNC/src/WebUI/WSChannel.cpp:84-93 | The push is accepted exactly when the channel is alive; a dead channel is unchanged; a live one gains the payload's bytes before the first NUL on its queue |
| WSChannel.Write | FluidNC/src/WebUI/WSChannel.cpp:35-80 | No-op for a null buffer, a dead channel or zero size. A partial line is only appended and reported written, with no server call. A completing line first queries readiness: negative kills the channel and reports 0, with the pending buffer kept; zero clears the buffer and reports the size; positive sends exactly the old buffer plus this one, clears the buffer, reports the size, and the channel is dead iff the send failed. Client slot, realtime slot and queue never change |
| WSChannel.ReadConsumesRealtimeChar | FluidNC/src/WebUI/WSChannel.cpp:18-29 | A realtime character is handed out at most once: the read after a read yields -1 |
| WSChannel.LastRealtimeCharWins | FluidNC/src/WebUI/WSChannel.cpp:82 | Of two realtime characters pushed before a read, the read returns the second |
| WSChannel.WritePreservesLineBufferPending | FluidNC/src/WebUI/WSChannel.cpp:40-79 | A live channel's line buffer never holds a finished line between writes |
| WSChannel.NegativeReadinessSilencesChannel | FluidNC/src/WebUI/WSChannel.cpp:35-64 | After negative readiness nothing was transmitted, 0 is reported, and every later write is a no-op |
| WSChannel.LineAssembledFromWrites | FluidNC/src/WebUI/WSChannel.cpp:40-79 | Partial writes, empty ones included, followed by one terminating write to a server reporting any positive readiness give exactly one query and one transmission, of everything pending plus all the buffers concatenated, after which the line buffer is empty |
| WSChannels.Empty | FluidNC/src/WebUI/WSChannel.cpp:112-115 | The start state has no clients, no browser clients, no last-used channel, and satisfies the consistency invariant |
| WSChannels.Without | FluidNC/src/WebUI/WSChannel.cpp:141 | Removing a channel from a list drops every occurrence and keeps every other element |
| WSChannels.WithoutKeepsDistinct | FluidNC/src/WebUI/WSChannel.cpp:149 | Removing a channel from a list without repeats leaves a list without repeats |
| WSChannels.WithoutDropsOne | FluidNC/src/WebUI/WSChannel.cpp:149 | Removing a member of a list without repeats shortens the list by exactly one |
| WSChannels.PageKey | FluidNC/src/WebUI/WSChannel.cpp:121 | A page id selects the slot congruent to it modulo 256, which is the id itself when it is in 0..255 |
| WSChannels.GetWSChannel | FluidNC/src/WebUI/WSChannel.cpp:117-136 | An explicit page id resolves iff its slot is in the client map, to that slot's channel. Page id -1 resolves iff the last-used channel is still a value of the client map, to that channel. The result, found or not, becomes the last-used channel and nothing else changes |
| WSChannels.ResolvedChannelIsRegistered | FluidNC/src/WebUI/WSChannel.cpp:117-136 | In a consistent state whatever resolves is an allocated channel the registry still holds |
| WSChannels.RemoveChannelByNum | FluidNC/src/WebUI/WSChannel.cpp:138-145 | An unknown slot changes nothing. Otherwise the slot is erased, its channel leaves the browser list and the registry, and the last-used channel is left alone |
| WSChannels.RemoveChannel | FluidNC/src/WebUI/WSChannel.cpp:147-158 | The last-used channel is cleared, the channel leaves the browser list and the registry, and exactly the map entries holding it are erased, the others kept with their values |
| WSChannels.RemovedByNumIsUnreachable | FluidNC/src/WebUI/WSChannel.cpp:138-145 | After a disconnect the slot's channel is in no index, and no page id resolves to it |
| WSChannels.RemovedChannelIsUnreachable | FluidNC/src/WebUI/WSChannel.cpp:147-158 | After removal by reference the channel is in no index, the last-used channel is empty, and no page id resolves to it |
| WSChannels.SendTXT | FluidNC/src/WebUI/WSChannel.cpp:97-108 | A dead channel refuses without a server call. Otherwise one text call is made; success changes nothing; failure marks the channel dead and removes it from every index. Success is reported iff alive and accepted; other channels are untouched |
| WSChannels.SendError | FluidNC/src/WebUI/WSChannel.cpp:190-196 | An error is reported when no channel resolves, or when the resolved channel is dead or the server refuses the text; in the latter case the text call and the resulting state (the channel killed and removed from every index on refusal) are those of `sendTXT` |
| WSChannels.ClassifyOn | FluidNC/src/WebUI/WSChannel.cpp:170-183 | With bytes read as signed `char`, only a lone realtime byte takes the realtime path; the legacy lead-byte forms are never recognised |
| WSChannels.AsSignedChar | FluidNC/src/WebUI/WSChannel.cpp:170 | A byte read as signed `char` is the value in -128..127 congruent to it modulo 256, equal to it below 128 |
| WSChannels.Classify | FluidNC/src/WebUI/WSChannel.cpp:170-183 | A payload takes the realtime path iff it is a lone realtime byte, or the lead byte 0xC2 followed by a realtime byte, optionally followed by NUL; the realtime byte is the one right after the lead byte, or the lone byte. Any other payload is text: it keeps the payload as prefix and ends in exactly one added line feed when it lacked one. An empty payload stays empty |
| WSChannels.RealtimeEncodingsRoundTrip | FluidNC/src/WebUI/WSChannel.cpp:170-177 | Each of the three client encodings of a realtime byte is classified back to that byte |
| WSChannels.SignedCharQueuesLegacyEncoding | FluidNC/src/WebUI/WSChannel.cpp:170-182 | With signed `char`, both legacy encodings of a realtime byte are queued as text, while the unsigned classification sends them to the realtime slot. The three-byte form then reaches the queue as its first two bytes, with no line feed |
| WSChannels.RunGCode | FluidNC/src/WebUI/WSChannel.cpp:160-188 | When nothing resolves, an error is reported and only the last-used channel changes. Otherwise an error is reported iff the command is text and the channel is dead, and only the resolved channel's record changes, besides the last-used channel |
| WSChannels.RealtimeCommandBypassesQueue | FluidNC/src/WebUI/WSChannel.cpp:170-177 | A realtime command is never an error, sets the resolved channel's realtime slot to its byte, leaves the queue unchanged, and is then read back unless the channel is dead |
| WSChannels.TextCommandQueuedAsLine | FluidNC/src/WebUI/WSChannel.cpp:178-183 | A NUL-free text command to a live channel is not an error; the queue gains the command plus a line feed when it lacked one, and the realtime slot is unchanged |
| WSChannels.TextCommandQueued | FluidNC/src/WebUI/WSChannel.cpp:178-182 | Any text command to a live channel is not an error; the queue gains the routed line up to its first NUL, as `push` copies it, and the realtime slot is unchanged |
| WSChannels.EmbeddedNulDropsAddedLineFeed | FluidNC/src/WebUI/WSChannel.cpp:170-182 | The payload `[0xC2, x, 0]` with `x` neither realtime nor NUL is routed as text with a line feed added after the NUL, so only `[0xC2, x]` is queued, with no line feed |
| WSChannels.TextCommandToDeadChannelFails | FluidNC/src/WebUI/WSChannel.cpp:182 | A text command to a dead channel is an error and changes nothing beyond the last-used channel |
| WSChannels.PingTextNamesChannel | FluidNC/src/WebUI/WSChannel.cpp:199-200 | A heartbeat text starts with `PING:` and the identity can be read back from the rest |
| WSChannels.PingEach | FluidNC/src/WebUI/WSChannel.cpp:197-205 | A heartbeat round allocates nothing and adds nothing to any index. A channel outside the round keeps its record, its registration, its browser-list membership and every slot that holds it. The last-used channel is cleared iff some live channel of the round refuses its heartbeat, whichever client it named, and is otherwise unchanged |
| WSChannels.SendPing | FluidNC/src/WebUI/WSChannel.cpp:197-205 | Over a browser list without repeats the calls are exactly the reference heartbeats, one per live browser client in list order. Clients outside the browser list keep their records, registrations and slots, and nothing is registered. The last-used channel is cleared iff some live browser client refuses its heartbeat, and is otherwise unchanged |
| WSChannels.PingEachReachesEachOnce | FluidNC/src/WebUI/WSChannel.cpp:197-205 | Over distinct channels, the calls made are exactly one heartbeat per live channel, in order, to its own slot and tagged with its own identity. Exactly the live channels whose heartbeat failed leave the browser list |
| WSChannels.SendPingReachesEveryBrowserClient | FluidNC/src/WebUI/WSChannel.cpp:197-205 | `sendPing` sends one heartbeat to each live browser client, each with its own identity. Afterwards the browser list keeps exactly the clients that were dead or answered |
| WSChannels.PingFailureErasesIteratedNode | FluidNC/src/WebUI/WSChannel.cpp:197-205 | A failing heartbeat removes the very channel the loop stands on from the list being iterated, shortening it by one |
| WSChannels.HandleConnect | FluidNC/src/WebUI/WSChannel.cpp:213-236 | A connection allocates one fresh channel for the slot, leaving existing records alone. A root-resource client is handled as `ConnectBrowser` states. Any other client gets no message and no browser-list entry; its channel is indexed under the slot, added to the registry (nothing else is) and made the last-used channel |
| WSChannels.ConnectBrowser | FluidNC/src/WebUI/WSChannel.cpp:223-235 | A root-resource client is sent `CURRENT_ID:<slot>` first, and when that succeeds `ACTIVE_ID:<identity>` next. If the first message is refused, only it was sent. If either is refused, the new channel is dead, the last-used channel is cleared, the client's slot is vacant, and the browser list and the registry are exactly as before the connection. Otherwise the new channel is indexed under the slot, added to the registry (nothing else is), made the last-used channel and put at the front of the browser list; existing records are untouched throughout |
| WSChannels.OpenChannel | FluidNC/src/WebUI/WSChannel.cpp:214-225 | A connection's channel gets an identity no existing record uses, is registered, indexed under the client's slot and made the last-used channel; the browser list is untouched |
| WSChannels.IdentifyBrowser | FluidNC/src/WebUI/WSChannel.cpp:228-235 | A browser client's channel sends the slot text, then the identity text only when the first was accepted. When both are accepted nothing changes. A refusal kills the channel and is exactly `removeChannel` of that channel: every other entry of every index, and every other record, is kept |
| WSChannels.RefusedChannelLeavesNoTrace | FluidNC/src/WebUI/WSChannel.cpp:147-158 | Removing a browser client's channel right after it was opened restores the browser list and the registry and leaves the client's slot vacant |
| WSChannels.HandleEvent | FluidNC/src/WebUI/WSChannel.cpp:207-248 | A disconnect is the removal of the slot. Inbound data goes to the slot's channel `push` and is dropped for an unknown slot. A connection is `HandleConnect` for the event's slot, resource and server answers. Other event types change nothing; no event but a connection contacts the server |
| WSChannels.BrowserConnectShape | FluidNC/src/WebUI/WSChannel.cpp:223-235 | A browser client whose identification gets through becomes a fresh channel at the front of the browser list, with every older channel record unchanged |
| WSChannels.TwoConnectsShape | FluidNC/src/WebUI/WSChannel.cpp:223-235 | After two browser clients connect to a server with none, the browser list holds their two fresh channels, newest first |
| WSChannels.ExpectedPingsTwo | FluidNC/src/WebUI/WSChannel.cpp:197-205 | Over two live channels the expected heartbeats are one each, in list order |
| WSChannels.PingTwoFreshClients | FluidNC/src/WebUI/WSChannel.cpp:197-205 | A broadcast over two fresh browser clients sends exactly one heartbeat to each, in list order, each to its own slot with its own identity |
| WSChannels.TwoBrowserClientsGetOnePingEach | FluidNC/src/WebUI/WSChannel.cpp:197-236 | After two browser clients connect to a server with none, one broadcast sends exactly two heartbeats, newest first, each to its own slot with its own identity |
| WSChannelsInvariant.GetWSChannelKeepsValid | FluidNC/src/WebUI/WSChannel.cpp:117-136 | Resolution keeps the indices consistent |
| WSChannelsInvariant.RemoveChannelKeepsValid | FluidNC/src/WebUI/WSChannel.cpp:147-158 | Removal by reference keeps the indices consistent |
| WSChannelsInvariant.RemoveChannelByNumKeepsValid | FluidNC/src/WebUI/WSChannel.cpp:138-145 | Removal by slot keeps the indices consistent |
| WSChannelsInvariant.KillInHeapKeepsValid | FluidNC/src/WebUI/WSChannel.cpp:102 | Marking a channel dead does not disturb the indices |
| WSChannelsInvariant.SendTXTKeepsValid | FluidNC/src/WebUI/WSChannel.cpp:97-108 | Sending text, including the removal on failure, keeps the indices consistent |
| WSChannelsInvariant.SendErrorKeepsValid | FluidNC/src/WebUI/WSChannel.cpp:190-196 | Reporting an error keeps the indices consistent |
| WSChannelsInvariant.RunGCodeKeepsValid | FluidNC/src/WebUI/WSChannel.cpp:160-188 | Running a command keeps the indices consistent |
| WSChannelsInvariant.PingEachKeepsValid | FluidNC/src/WebUI/WSChannel.cpp:197-205 | A heartbeat round keeps the indices consistent, whatever fails |
| WSChannelsInvariant.SendPingKeepsValid | FluidNC/src/WebUI/WSChannel.cpp:197-205 | A heartbeat broadcast keeps the indices consistent |
| WSChannelsInvariant.RegisterKeepsValid | FluidNC/src/WebUI/WSChannel.cpp:223-225 | Registering a fresh channel under a free slot keeps the indices consistent |
| WSChannelsInvariant.HandleConnectKeepsValid | FluidNC/src/WebUI/WSChannel.cpp:213-236 | A connection on a free slot keeps the indices consistent, whether or not the identification messages get through |
| WSChannelsInvariant.HandleEventKeepsValid | FluidNC/src/WebUI/WSChannel.cpp:207-248 | Every server event keeps the indices consistent, provided no connection is reported on an occupied slot |
| InputFile.LineEnd | FluidNC/src/InputFile.cpp:27-29 | The line ends at the first line feed from the cursor on, or at the end of the file |
| InputFile.ScanStopsAtEnd | FluidNC/src/InputFile.cpp:20-33 | When the file ends before the buffer fills, the stored bytes form the line, reported as end of file iff none were stored |
| InputFile.ScanStopsWhenFull | FluidNC/src/InputFile.cpp:20-23 | A byte that finds the buffer full makes the line too long and is itself consumed |
| InputFile.ScanStopsAtLineFeed | FluidNC/src/InputFile.cpp:27-29 | A line feed with room left ends the line, is consumed, and is not stored |
| InputFile.FirstFullUnique | FluidNC/src/InputFile.cpp:20-23 | At most one byte of a line is the first to find the buffer full |
| InputFile.ScanStep | FluidNC/src/InputFile.cpp:24-30 | A byte that is not a line feed and arrives with room left is stored unless it is a carriage return, and the loop goes on from the next byte with the line still within the bound |
| InputFile.ScanMeetsLineSpec | FluidNC/src/InputFile.cpp:20-33 | The read loop yields the declarative line outcome from every point it can reach |
| InputFile.ReadLine | FluidNC/src/InputFile.cpp:16-34 | Every read counts one line whatever the outcome and changes only the cursor. Stored bytes number at most `maxlen` and hold no CR or LF. The status is too-long iff `maxlen` bytes were stored before the line's last byte, CR and LF included; the read then stops right after the first byte that found the buffer full, that byte consumed, and holds the stripped bytes before it. Otherwise the line is the stripped bytes up to the first LF, which is consumed. End of file is reported iff the file is exhausted with nothing stored; an empty line or a final unterminated line is Ok |
| InputFile.PlainLineReadBack | FluidNC/src/InputFile.cpp:20-33 | A short line without carriage returns is read back exactly, and the cursor moves past its line feed |
| InputFile.ReadAtEndIsEof | FluidNC/src/InputFile.cpp:33 | Reading an exhausted file reports end of file with nothing stored and the cursor unmoved |
| InputFile.StoredPrefix | FluidNC/src/InputFile.cpp:24-30 | Within a stretch free of carriage returns, every byte read is stored |
| InputFile.LongLineIsOverlong | FluidNC/src/InputFile.cpp:20-23 | A plain line longer than the bound is too long |
| InputFile.FullBufferPosition | FluidNC/src/InputFile.cpp:20-23 | In a plain long line the buffer is full exactly after the first `maxlen` bytes, which are what it holds |
| InputFile.LongLineStopsAfterLimit | FluidNC/src/InputFile.cpp:20-23 | Reading a plain line longer than the bound reports too long, stores its first `maxlen` bytes, and consumes exactly one byte more |
| InputFile.TooLongOutcomeUnique | FluidNC/src/InputFile.cpp:20-23 | The too-long outcome is determined by the file: two too-long reads of the same line stop at the same byte with the same stored bytes |
| InputFile.CarriageReturnFindsBufferFull | FluidNC/src/InputFile.cpp:20-26 | With room for two bytes, `ab` CR LF is too long: the carriage return finds the buffer full and is consumed, the cursor stops before the line feed, and `ab` is held |
| InputFile.TooLongReportedAtSixthByte | FluidNC/src/InputFile.cpp:20-23 | With room for five bytes, `TOOLONG` is reported too long after six bytes are consumed, holding `TOOLO` |
| InputFile.Ack | FluidNC/src/InputFile.cpp:41-54 | Success or an unsupported command opens the gate and changes nothing else. Any other status records a job error with that status, the path and the line number, kills the channel, and leaves the gate as it was |
| InputFile.PollLine | FluidNC/src/InputFile.cpp:61-90 | With the gate closed or no buffer, nothing is read or changed. Otherwise one line is read. A line is handed out and sets the progress to the cursor and size, with the position within the size. End of file clears progress, announces the job done and kills the channel. Any other status clears progress and kills without a notice. The gate itself never changes |
| InputFile.PollDoesNotWaitForAck | FluidNC/src/InputFile.cpp:61-73 | As written, handing out a line leaves the gate open, so the next poll reads another line without an acknowledgment |
| InputFile.StopJob | FluidNC/src/InputFile.cpp:92-97 | Cancellation records the current line and kills the channel whatever the gate, changing nothing else |
| InputFile.Destroy | FluidNC/src/InputFile.cpp:99-101 | Destruction empties the progress slot and changes nothing else |
| InputFile.AckKeepsJobValid | FluidNC/src/InputFile.cpp:41-54 | An acknowledgment keeps the cursor within the file and any progress within the file's size and naming its path |
| InputFile.PollLineKeepsJobValid | FluidNC/src/InputFile.cpp:61-90 | A poll keeps the cursor within the file and any progress within the file's size and naming its path |
| InputFile.StopJobKeepsJobValid | FluidNC/src/InputFile.cpp:92-97 | Cancellation keeps the cursor within the file and any progress within the file's size and naming its path |
| InputFile.DestroyKeepsJobValid | FluidNC/src/InputFile.cpp:99-101 | Destruction keeps the job consistent, and leaves no progress behind |
| InputFile.ProgressIsWriteOnly | FluidNC/src/InputFile.cpp:61-90 | What a poll hands out, where the cursor goes, whether the job is killed, what is announced and the line count do not depend on the progress slot's earlier content |
| InputFile.DestroyAfterPollClearsProgress | FluidNC/src/InputFile.cpp:61-101 | Whatever progress a poll left behind, destroying the job afterwards leaves the slot empty |
| InputFile.StopJobEndsJob | FluidNC/src/InputFile.cpp:92-97 | A cancelled job is over: any number of later poll-and-acknowledge rounds change nothing, and the last notice is the cancellation at the current line |
| InputFile.Round | FluidNC/src/InputFile.cpp:61-90 | A poll followed by the acknowledgment of any line it handed out never changes the file or its path and keeps the cursor within the file |
| InputFile.RoundProgress | FluidNC/src/InputFile.cpp:41-90 | With the gate open, such a round either moves the cursor forward and leaves the gate open, or kills the channel |
| InputFile.Replay | FluidNC/src/InputFile.cpp:61-90 | Driving the job never changes the file and keeps the cursor within it; with no rounds left, or once killed, nothing changes |
| InputFile.ReplayEnds | FluidNC/src/InputFile.cpp:41-90 | A job acknowledged with success after every line is killed within one round more than the number of bytes left |
| InputFile.ThreeLinesThenEnd | FluidNC/src/InputFile.cpp:16-90 | A file of a line, an empty line and a line gives those three lines on three acknowledged polls. The fourth poll hands out nothing, kills the channel, clears progress, announces the job done, and has counted four reads |

## Left out

- `Channel::maxLine` is not part of this model. `PollLine` takes the bound as a parameter.
- Char signedness is modelled as unsigned everywhere except in `WSChannels.ClassifyOn`. With a signed `char`, `pushRT(cmd[1])` would also store a byte from 0x80 up as a negative value. The model does not track that.
- WebSocketsServer (`canSend`, `sendBIN`, `sendTXT`, `remoteIP`) is an oracle, given as step inputs. The failure of `new` (`WSChannel.cpp:215`) cannot be expressed and is omitted.
- `is_realtime_command` is an arbitrary predicate parameter.
- The channel registry (`allChannels.registration` and `kill`) is a set of live ids plus, for the file job, a killed flag. Whatever the registry does beyond that is not part of this model.
- File I/O (`read`, `position`, `size`, `fpath`) is a byte sequence, a cursor and a path.
- The float `percent_complete` and its two-decimal text are left out. The progress slot keeps position, size and path instead.
- Logging is left out. `_notifyf` notifications are recorded as `Notice` values without their text.
- `WSChannel::push(payload, length)` ignores `length` and copies up to the first NUL (`WSChannel.cpp:89`, `:242`). The source therefore relies on the WebSocket transport placing a NUL after every inbound payload. `Bytes.UpToNul` instead stops at the payload's end when it holds no NUL; what the source reads past the payload in that case is not modelled.
- `WSChannel::write(uint8_t)` and `push(std::string&)` are left out; each is a one-line forward to the modelled overload.
- `WSChannel::operator bool` and the destructor are left out, since they carry no behaviour.
- The mid-loop failure of `sendPing` is not modelled (see Findings). In the source it invalidates the iterator. `WSChannels.SendPing` iterates the list as it stood when the broadcast started.
- WSChannels.PingText and WSChannels.ActiveIdText: `WSChannel::id()` (`WSChannel.cpp:200`, `:234`) is not part of this model. Both texts take it to be the channel's registry identity, `ChannelId`, which is distinct from the client slot. If `id()` returned the slot, the `PING:` and `ACTIVE_ID:` texts and the lemmas naming them would carry the slot instead.
- A refused identification on a slot that already held a channel leaves the slot vacant: the new entry replaced the old one at `WSChannel.cpp:225`, and the removal then erases it. The old channel stays registered and alive but no slot leads to it. `WSChannels.ConnectBrowser` states this as written.
- WSChannelsInvariant.HandleEventKeepsValid: it requires that a connection is never reported on an occupied slot. In the source such a connection would overwrite the map entry and leave the old channel registered.
- Behaviours of the source a reader may not expect, modelled as written:
  - negative readiness keeps the pending line buffer;
  - the legacy page-id fallback checks the client map, not the browser list;
  - a disconnect by slot leaves the last-used channel in place, which then no longer resolves;
  - a failed resolution also overwrites the last-used channel (with nothing);
  - one refused heartbeat clears the last-used channel, and with it the legacy page-id fallback, for every client, including an API-only one outside the broadcast (`WSChannels.PingEach`);
  - a too-long line in `pollLine` raises no notification;
  - a text command holding a NUL is queued only up to that NUL, so the line feed `runGCode` adds is lost and the command runs into the next one (`WSChannels.EmbeddedNulDropsAddedLineFeed`);
  - `pollLine` never closes its own gate, as `InputFile.PollDoesNotWaitForAck` records. The gate's initial value lives in a header that is not part of this model and is an input here.

## Findings

| source | as written | input that shows it | evidently intended | confidence | as-written member | corrected member |
|---|---|---|---|---|---|---|
| FluidNC/src/WebUI/WSChannel.cpp:197-205 | `sendPing` range-for-loops over the browser list. A failing `sendTXT` calls `removeChannel`, which removes the current element from that same list, so the loop then advances a freed node | one browser client whose heartbeat the server refuses | each browser client is pinged once, over a snapshot of the list or with erase-safe iteration | medium; not executed | WSChannels.PingFailureErasesIteratedNode | WSChannels.SendPingReachesEveryBrowserClient |
| FluidNC/src/WebUI/WSChannel.cpp:170-175 | `cmd[0] == 0xc2` compares a plain `char` with 194. Where `char` is signed the byte reads as -62 and neither legacy form matches | payload `[0xC2, r]` or `[0xC2, r, 0]` with `r` a realtime byte, on a signed-`char` target | both legacy forms reach the realtime slot | low, depends on the target's `char` signedness; not executed | WSChannels.SignedCharQueuesLegacyEncoding | WSChannels.RealtimeEncodingsRoundTrip |

=== FILE: bytes.dfy ===
/**
 Byte-level vocabulary shared by the WebSocket channel and the file-replay
 channel: an unsigned byte, the control bytes both channels look for, an
 optional value standing in for a nullable pointer, and the decimal rendering
 used by the identification and heartbeat messages.
 */
module Bytes {

  /** An unsigned 8-bit value; plain `char` bytes are modelled unsigned. */
  type byte = x: int | 0 <= x < 256

  const NUL: byte := 0
  const LF: byte := 10
  const CR: byte := 13

  /** Stands in for a pointer that may be null. */
  datatype Option<+T> = None | Some(value: T)

  /** The bytes of `s` with every carriage return dropped, in order. */
  function Strip(s: seq<byte>): (r: seq<byte>)
    ensures |r| <= |s|
    ensures CR !in r
  {
    if s == [] then []
    else Strip(s[..|s| - 1]) + (if s[|s| - 1] == CR then [] else [s[|s| - 1]])
  }

  /** The stripped bytes are exactly the bytes of the input other than CR. */
  lemma {:induction false} StripMembers(s: seq<byte>, b: byte)
    ensures b in Strip(s) <==> b in s && b != CR
    decreases |s|
  {
    if s != [] {
      var init := s[..|s| - 1];
      assert s == init + [s[|s| - 1]];
      StripMembers(init, b);
    }
  }

  /** Every byte other than CR is kept as many times as it occurs: nothing is lost or duplicated. */
  lemma {:induction false} StripCounts(s: seq<byte>, b: byte)
    requires b != CR
    ensures multiset(Strip(s))[b] == multiset(s)[b]
    decreases |s|
  {
    if s != [] {
      var init := s[..|s| - 1];
      assert s == init + [s[|s| - 1]];
      StripCounts(init, b);
    }
  }

  /** Extending the input by one byte extends the stripped bytes by at most that byte. */
  lemma StripSnoc(s: seq<byte>, b: byte)
    ensures Strip(s + [b]) == Strip(s) + (if b == CR then [] else [b])
  {
    assert (s + [b])[..|s + [b]| - 1] == s;
  }

  /** Stripping distributes over concatenation, so the kept bytes stay in their order. */
  lemma {:induction false} StripAppend(a: seq<byte>, b: seq<byte>)
    ensures Strip(a + b) == Strip(a) + Strip(b)
    decreases |b|
  {
    if b == [] {
      assert a + b == a;
    } else {
      var init := b[..|b| - 1];
      var last := b[|b| - 1];
      var tail := if last == CR then [] else [last];
      assert b == init + [last];
      assert a + b == (a + init) + [last];
      calc {
        Strip(a + b);
        Strip((a + init) + [last]);
        { StripSnoc(a + init, last); }
        Strip(a + init) + tail;
        { StripAppend(a, init); }
        (Strip(a) + Strip(init)) + tail;
        Strip(a) + (Strip(init) + tail);
        { StripSnoc(init, last); }
        Strip(a) + Strip(init + [last]);
      }
    }
  }

  /** Without carriage returns there is nothing to strip. */
  lemma {:induction false} StripNoCR(s: seq<byte>)
    requires CR !in s
    ensures Strip(s) == s
  {
    if s != [] {
      StripNoCR(s[..|s| - 1]);
      assert s == s[..|s| - 1] + [s[|s| - 1]];
    }
  }

  /** Stripping a longer prefix never yields fewer bytes. */
  lemma {:induction false} StripPrefixMonotone(s: seq<byte>, i: nat, j: nat)
    requires i <= j <= |s|
    ensures |Strip(s[..i])| <= |Strip(s[..j])|
    decreases j - i
  {
    if i < j {
      StripPrefixMonotone(s, i, j - 1);
      assert s[..j] == s[..j - 1] + [s[j - 1]];
      StripSnoc(s[..j - 1], s[j - 1]);
    }
  }

  /**
   The bytes of a C string: everything before the first NUL, or all of `s`
   when it holds none. A C string read from a payload without a NUL would run
   past its end; taking the whole payload assumes the transport placed a NUL
   right after it.
   */
  function UpToNul(s: seq<byte>): (r: seq<byte>)
    ensures |r| <= |s| && r == s[..|r|]
    ensures NUL !in r
    ensures |r| == |s| || s[|r|] == NUL
  {
    if s == [] || s[0] == NUL then [] else [s[0]] + UpToNul(s[1..])
  }

  /** A C string ends at the first NUL, wherever that is. */
  lemma UpToNulAt(s: seq<byte>, i: nat)
    requires i < |s| && s[i] == NUL && NUL !in s[..i]
    ensures UpToNul(s) == s[..i]
  {
  }

  predicate IsDigit(c: char) {
    '0' <= c <= '9'
  }

  function DigitChar(d: nat): (c: char)
    requires d < 10
    ensures IsDigit(c) && c as int - '0' as int == d
  {
    ('0' as int + d) as char
  }

  /** Decimal rendering of a natural number, as `std::to_string` writes it. */
  function DecimalString(n: nat): (s: string)
    ensures |s| >= 1
    ensures forall i :: 0 <= i < |s| ==> IsDigit(s[i])
    ensures n < 10 <==> |s| == 1
  {
    if n < 10 then [DigitChar(n)] else DecimalString(n / 10) + [DigitChar(n % 10)]
  }

  /** Value of a string of decimal digits, most significant first. */
  function ParseDecimal(s: string): (r: nat)
    requires forall i :: 0 <= i < |s| ==> IsDigit(s[i])
  {
    if s == [] then 0
    else
      assert IsDigit(s[|s| - 1]);
      ParseDecimal(s[..|s| - 1]) * 10 + (s[|s| - 1] as int - '0' as int)
  }

  /** Reading back a rendered number gives the number. */
  lemma {:induction false} DecimalRoundTrip(n: nat)
    ensures ParseDecimal(DecimalString(n)) == n
    decreases n
  {
    if n >= 10 {
      var s := DecimalString(n);
      DecimalRoundTrip(n / 10);
      assert s[..|s| - 1] == DecimalString(n / 10);
    }
  }

  /** Distinct numbers render to distinct strings. */
  lemma DecimalInjective(m: nat, n: nat)
    requires DecimalString(m) == DecimalString(n)
    ensures m == n
  {
    DecimalRoundTrip(m);
    DecimalRoundTrip(n);
  }
}

=== FILE: inputfile.dfy ===
/**
 A stored job file replayed as a command channel (InputFile).

 The file is a byte sequence with a read cursor. Lines are handed out one
 per poll, paced by acknowledgments from the consumer. The registry's kill
 is a flag; the process-wide progress string is kept abstract as the values
 it is formatted from; operator notifications are recorded in order.
 */
module InputFile {
  import opened Bytes

  /** The status codes this channel produces or reacts to. */
  datatype Error =
    | Ok
    | Eof
    | LineLengthExceeded
    | GcodeUnsupportedCommand
    | OtherError(code: int)

  /** The shared progress slot: empty, or what `SD:<percent>,<path>` is formatted from. */
  datatype Progress = NoJob | Progress(position: nat, size: nat, path: string)

  /** Operator notifications, in the order raised. */
  datatype Notice =
    | JobError(status: Error, path: string, line: int)
    | JobDone(path: string)
    | Canceled(line: int)

  datatype State = State(
    data: seq<byte>,        // the file's bytes
    pos: nat,               // read cursor
    path: string,
    lineNum: int,           // lines read so far, for diagnostics
    readyNext: bool,        // the consumer acknowledged the last line
    killed: bool,           // the registry was asked to kill this channel
    progress: Progress,     // the process-wide progress slot
    notices: seq<Notice>)

  // ---------------------------------------------------------------------------
  // Line reading

  /** Index of the first line feed at or after `pos`, or the end of the file. */
  function LineEnd(data: seq<byte>, pos: nat): (j: nat)
    requires pos <= |data|
    ensures pos <= j <= |data|
    ensures forall i :: pos <= i < j ==> data[i] != LF
    ensures j < |data| ==> data[j] == LF
    decreases |data| - pos
  {
    if pos == |data| || data[pos] == LF then pos else LineEnd(data, pos + 1)
  }

  /** Index of the last byte a read of this line consumes when nothing stops it early. */
  function LastByte(data: seq<byte>, pos: nat): (r: int)
    requires pos <= |data|
  {
    if LineEnd(data, pos) < |data| then LineEnd(data, pos) else |data| - 1
  }

  /**
   The line starting at `pos` is too long for `maxlen` stored bytes: by the
   time its last byte (its line feed, or the file's last byte) is read,
   `maxlen` bytes other than carriage returns are already stored.
   */
  predicate Overlong(data: seq<byte>, pos: nat, maxlen: nat)
    requires pos <= |data|
  {
    pos <= LastByte(data, pos) && |Strip(data[pos..LastByte(data, pos)])| >= maxlen
  }

  /**
   The byte at `k` is the first one of the line to find the buffer full:
   `maxlen` bytes other than carriage returns precede it, and fewer precede
   the byte before it.
   */
  predicate FirstFull(data: seq<byte>, pos: nat, maxlen: nat, k: nat)
    requires pos <= k < |data|
  {
    |Strip(data[pos..k])| == maxlen && (k == pos || |Strip(data[pos..k - 1])| < maxlen)
  }

  /** At most one byte of a line is the first to find the buffer full. */
  lemma FirstFullUnique(data: seq<byte>, pos: nat, maxlen: nat, k1: nat, k2: nat)
    requires pos <= k1 < |data| && pos <= k2 < |data|
    requires FirstFull(data, pos, maxlen, k1) && FirstFull(data, pos, maxlen, k2)
    ensures k1 == k2
  {
    if k1 < k2 {
      StripSliceMonotone(data, pos, k1, k2 - 1);
    } else if k2 < k1 {
      StripSliceMonotone(data, pos, k2, k1 - 1);
    }
  }

  /**
   What reading one line from `pos` must yield: status `st`, stored bytes
   `line`, new cursor `next`.
   */
  predicate LineSpec(data: seq<byte>, pos: nat, maxlen: nat, st: Error, line: seq<byte>, next: nat)
    requires pos <= |data|
  {
    var j := LineEnd(data, pos);
    && pos <= next <= |data|
    && (pos < |data| ==> pos < next)
    && |line| <= maxlen && CR !in line && LF !in line
    && (st == LineLengthExceeded <==> Overlong(data, pos, maxlen))
    && (st == LineLengthExceeded ==>
          // the read stops right after the first byte that found the buffer full
          && pos < next && next - 1 <= LastByte(data, pos)
          && FirstFull(data, pos, maxlen, next - 1)
          && line == Strip(data[pos..next - 1]))
    && (st != LineLengthExceeded ==>
          && line == Strip(data[pos..j])
          && next == (if j < |data| then j + 1 else |data|)
          && (st == Ok || st == Eof)
          && (st == Eof <==> j == |data| && line == []))
  }

  /**
   The read loop from cursor `k` with `stored` bytes in the line buffer:
   a byte arriving when the buffer is full is an error, carriage returns
   are skipped, a line feed ends the line, the end of the file ends it too
   (as end of file when nothing was stored).
   */
  function Scan(data: seq<byte>, k: nat, maxlen: nat, stored: seq<byte>): (r: (Error, seq<byte>, nat))
    requires k <= |data|
    decreases |data| - k
  {
    if k == |data| then (if |stored| > 0 then Ok else Eof, stored, k)
    else if |stored| >= maxlen then (LineLengthExceeded, stored, k + 1)
    else if data[k] == CR then Scan(data, k + 1, maxlen, stored)
    else if data[k] == LF then (Ok, stored, k + 1)
    else Scan(data, k + 1, maxlen, stored + [data[k]])
  }

  lemma StripSlice(data: seq<byte>, pos: nat, k: nat)
    requires pos <= k < |data|
    ensures Strip(data[pos..k + 1]) == Strip(data[pos..k]) + (if data[k] == CR then [] else [data[k]])
  {
    assert data[pos..k + 1] == data[pos..k] + [data[k]];
    StripSnoc(data[pos..k], data[k]);
  }

  lemma StripSliceMonotone(data: seq<byte>, pos: nat, a: nat, b: nat)
    requires pos <= a <= b <= |data|
    ensures |Strip(data[pos..a])| <= |Strip(data[pos..b])|
  {
    var s := data[pos..b];
    assert s[..a - pos] == data[pos..a];
    assert s[..b - pos] == s;
    StripPrefixMonotone(s, a - pos, b - pos);
  }

  lemma NoLineFeedBefore(data: seq<byte>, pos: nat, k: nat)
    requires pos <= |data| && pos <= k <= LineEnd(data, pos)
    ensures LF !in Strip(data[pos..k])
  {
    StripMembers(data[pos..k], LF);
  }

  /** The read loop from cursor `k`, entered with the line's stripped bytes so far, meets `LineSpec`. */
  predicate ScanMeets(data: seq<byte>, pos: nat, k: nat, maxlen: nat)
    requires pos <= k <= |data|
  {
    var res := Scan(data, k, maxlen, Strip(data[pos..k]));
    LineSpec(data, pos, maxlen, res.0, res.1, res.2)
  }

  /** The file ends before the buffer fills: the line (or end of file) is what was stored. */
  lemma ScanStopsAtEnd(data: seq<byte>, pos: nat, maxlen: nat)
    requires pos <= |data| && LineEnd(data, pos) == |data|
    requires |Strip(data[pos..|data|])| <= maxlen
    requires |data| == pos || |Strip(data[pos..|data| - 1])| < maxlen
    ensures var stored := Strip(data[pos..|data|]);
            LineSpec(data, pos, maxlen, if |stored| > 0 then Ok else Eof, stored, |data|)
    ensures ScanMeets(data, pos, |data|, maxlen)
  {
    NoLineFeedBefore(data, pos, |data|);
  }

  /** A byte arrives with the buffer full: the line is too long, and that byte is consumed. */
  lemma ScanStopsWhenFull(data: seq<byte>, pos: nat, k: nat, maxlen: nat)
    requires pos <= |data| && pos <= k <= LineEnd(data, pos) && k < |data|
    requires |Strip(data[pos..k])| == maxlen
    requires k == pos || |Strip(data[pos..k - 1])| < maxlen
    ensures LineSpec(data, pos, maxlen, LineLengthExceeded, Strip(data[pos..k]), k + 1)
    ensures ScanMeets(data, pos, k, maxlen)
  {
    NoLineFeedBefore(data, pos, k);
    assert k <= LastByte(data, pos);
    StripSliceMonotone(data, pos, k, LastByte(data, pos));
  }

  /** The line feed arrives with room left: the line is what was stored. */
  lemma ScanStopsAtLineFeed(data: seq<byte>, pos: nat, k: nat, maxlen: nat)
    requires pos <= |data| && pos <= k <= LineEnd(data, pos) && k < |data| && data[k] == LF
    requires |Strip(data[pos..k])| < maxlen
    ensures LineSpec(data, pos, maxlen, Ok, Strip(data[pos..k]), k + 1)
    ensures ScanMeets(data, pos, k, maxlen)
  {
    NoLineFeedBefore(data, pos, k);
    assert LineEnd(data, pos) == k;
  }

  /** A byte that is neither stored into a full buffer nor a line feed just extends the stored bytes. */
  lemma ScanStep(data: seq<byte>, pos: nat, k: nat, maxlen: nat)
    requires pos <= |data| && pos <= k <= LineEnd(data, pos) && k < |data| && data[k] != LF && |Strip(data[pos..k])| < maxlen
    ensures Scan(data, k, maxlen, Strip(data[pos..k])) == Scan(data, k + 1, maxlen, Strip(data[pos..k + 1]))
    ensures k + 1 <= LineEnd(data, pos) && |Strip(data[pos..k + 1])| <= maxlen
  {
    StripSlice(data, pos, k);
    if data[k] == CR {
      assert Strip(data[pos..k + 1]) == Strip(data[pos..k]);
    } else {
      assert Strip(data[pos..k + 1]) == Strip(data[pos..k]) + [data[k]];
    }
  }

  /**
   The read loop meets `LineSpec` from any point it can reach: the cursor
   has not passed the line's end, the buffer holds the stripped bytes read
   so far, and no earlier byte found the buffer full.
   */
  lemma {:induction false} ScanMeetsLineSpec(data: seq<byte>, pos: nat, k: nat, maxlen: nat)
    requires pos <= |data| && pos <= k <= LineEnd(data, pos)
    requires |Strip(data[pos..k])| <= maxlen
    requires k == pos || |Strip(data[pos..k - 1])| < maxlen
    ensures ScanMeets(data, pos, k, maxlen)
    decreases |data| - k
  {
    if k == |data| {
      ScanStopsAtEnd(data, pos, maxlen);
    } else if |Strip(data[pos..k])| >= maxlen {
      ScanStopsWhenFull(data, pos, k, maxlen);
    } else if data[k] == LF {
      ScanStopsAtLineFeed(data, pos, k, maxlen);
    } else {
      ScanStep(data, pos, k, maxlen);
      ScanMeetsLineSpec(data, pos, k + 1, maxlen);
    }
  }

  /**
   A too-long read stops at the first byte that finds the buffer full: the
   outcome `LineSpec` allows is unique, carriage returns after it included.
   */
  lemma TooLongOutcomeUnique(data: seq<byte>, pos: nat, maxlen: nat,
                             line1: seq<byte>, next1: nat, line2: seq<byte>, next2: nat)
    requires pos <= |data|
    requires LineSpec(data, pos, maxlen, LineLengthExceeded, line1, next1)
    requires LineSpec(data, pos, maxlen, LineLengthExceeded, line2, next2)
    ensures next1 == next2 && line1 == line2
  {
    FirstFullUnique(data, pos, maxlen, next1 - 1, next2 - 1);
  }

  datatype ReadLineResult = ReadLineResult(f: State, status: Error, line: seq<byte>)

  /**
   `readLine(line, maxlen)`: count the line, then read it as `LineSpec`
   describes. The line buffer needs `maxlen + 1` slots: the stored bytes
   plus the terminating NUL written at index `|line|`.
   */
  function ReadLine(f: State, maxlen: nat): (r: ReadLineResult)
    requires f.pos <= |f.data|
    ensures r.f == f.(pos := r.f.pos, lineNum := f.lineNum + 1)
    ensures LineSpec(f.data, f.pos, maxlen, r.status, r.line, r.f.pos)
  {
    assert f.data[f.pos..f.pos] == [];
    ScanMeetsLineSpec(f.data, f.pos, f.pos, maxlen);
    var (st, line, next) := Scan(f.data, f.pos, maxlen, []);
    ReadLineResult(f.(pos := next, lineNum := f.lineNum + 1), st, line)
  }

  /** A line shorter than the buffer, free of carriage returns, is read back unchanged. */
  lemma {:induction false} PlainLineReadBack(f: State, text: seq<byte>, maxlen: nat)
    requires f.pos + |text| < |f.data| && f.data[f.pos..f.pos + |text|] == text
    requires f.data[f.pos + |text|] == LF
    requires CR !in text && LF !in text && |text| < maxlen
    ensures var r := ReadLine(f, maxlen);
            r.status == Ok && r.line == text && r.f.pos == f.pos + |text| + 1
  {
    var j := LineEnd(f.data, f.pos);
    assert j == f.pos + |text|;
    StripNoCR(text);
  }

  /** The file is exhausted: the read reports end of file and stores nothing. */
  lemma ReadAtEndIsEof(f: State, maxlen: nat)
    requires f.pos == |f.data|
    ensures var r := ReadLine(f, maxlen);
            r.status == Eof && r.line == [] && r.f.pos == f.pos
  {
    assert f.data[f.pos..LineEnd(f.data, f.pos)] == [];
  }

  /** Within a stretch of bytes free of carriage returns every byte read is stored. */
  lemma StoredPrefix(data: seq<byte>, pos: nat, text: seq<byte>, i: nat)
    requires pos + |text| <= |data| && data[pos..pos + |text|] == text
    requires CR !in text && i <= |text|
    ensures Strip(data[pos..pos + i]) == text[..i]
  {
    assert data[pos..pos + i] == text[..i];
    StripNoCR(text[..i]);
  }

  lemma LongLineIsOverlong(data: seq<byte>, pos: nat, text: seq<byte>, maxlen: nat)
    requires pos + |text| <= |data| && data[pos..pos + |text|] == text
    requires CR !in text && LF !in text && |text| > maxlen
    ensures pos + |text| <= LineEnd(data, pos)
    ensures Overlong(data, pos, maxlen)
  {
    assert pos + |text| <= LineEnd(data, pos) by {
      forall i | pos <= i < pos + |text| ensures data[i] != LF {
        assert data[i] == text[i - pos];
      }
    }
    StoredPrefix(data, pos, text, maxlen);
    StripSliceMonotone(data, pos, pos + maxlen, LastByte(data, pos));
  }

  /** Where a read that found the buffer full must have stopped, within a long plain line. */
  lemma FullBufferPosition(data: seq<byte>, pos: nat, text: seq<byte>, maxlen: nat, line: seq<byte>, k: nat)
    requires pos + |text| <= |data| && data[pos..pos + |text|] == text
    requires CR !in text && |text| > maxlen
    requires pos <= k <= |data| && line == Strip(data[pos..k]) && |line| == maxlen
    ensures k == pos + maxlen && line == text[..maxlen]
  {
    if k <= pos + |text| {
      StoredPrefix(data, pos, text, k - pos);
      assert k - pos == maxlen;
      StoredPrefix(data, pos, text, maxlen);
    } else {
      StoredPrefix(data, pos, text, |text|);
      StripSliceMonotone(data, pos, pos + |text|, k);
      assert false;
    }
  }

  /** An overlong line is reported as too long, holding the bytes stored before the last one read. */
  lemma OverlongOutcome(data: seq<byte>, pos: nat, maxlen: nat, st: Error, line: seq<byte>, next: nat)
    requires pos <= |data| && LineSpec(data, pos, maxlen, st, line, next) && Overlong(data, pos, maxlen)
    ensures st == LineLengthExceeded && pos < next <= |data| && line == Strip(data[pos..next - 1])
  {
  }

  /**
   A line of more than `maxlen` bytes: the byte after the first `maxlen` is
   consumed and reported as too long; nothing further is read.
   */
  lemma LongLineStopsAfterLimit(f: State, text: seq<byte>, maxlen: nat)
    requires f.pos + |text| <= |f.data| && f.data[f.pos..f.pos + |text|] == text
    requires CR !in text && LF !in text && |text| > maxlen
    ensures var r := ReadLine(f, maxlen);
            r.status == LineLengthExceeded && r.f.pos == f.pos + maxlen + 1
            && r.line == text[..maxlen]
  {
    var r := ReadLine(f, maxlen);
    LongLineIsOverlong(f.data, f.pos, text, maxlen);
    OverlongOutcome(f.data, f.pos, maxlen, r.status, r.line, r.f.pos);
    FullBufferPosition(f.data, f.pos, text, maxlen, r.line, r.f.pos - 1);
  }

  // ---------------------------------------------------------------------------
  // Flow control

  /**
   `ack(status)`: success, or a command the interpreter does not support,
   opens the gate for the next line; any other status raises a job error
   naming the status, the file and the line, and kills the channel with
   the gate left as it was.
   */
  function Ack(f: State, status: Error): (r: State)
    ensures status == Ok || status == GcodeUnsupportedCommand ==> r == f.(readyNext := true)
    ensures status != Ok && status != GcodeUnsupportedCommand ==>
              && r.killed && r.readyNext == f.readyNext
              && r.notices == f.notices + [JobError(status, f.path, f.lineNum)]
              && r == f.(killed := true, notices := r.notices)
  {
    if status != Ok && status != GcodeUnsupportedCommand then
      f.(notices := f.notices + [JobError(status, f.path, f.lineNum)], killed := true)
    else f.(readyNext := true)
  }

  /** What a poll hands back: a line, or nothing (a null channel pointer). */
  datatype PollOut = NoLine | Line(text: seq<byte>)

  datatype PollResult = PollResult(f: State, out: PollOut)

  /**
   `pollLine(line)`: with the gate closed or no line buffer (`hasBuffer`
   false) nothing is read. Otherwise one line is read with buffer bound
   `maxLine`: a line updates the progress slot and is handed out; end of
   file clears progress, announces the finished job and kills the channel;
   any other status clears progress and kills the channel.
   */
  function PollLine(f: State, hasBuffer: bool, maxLine: nat): (r: PollResult)
    requires f.pos <= |f.data|
    ensures !f.readyNext || !hasBuffer ==> r == PollResult(f, NoLine)
    ensures f.readyNext && hasBuffer ==>
              var rl := ReadLine(f, maxLine);
              && r.f.pos == rl.f.pos && r.f.lineNum == f.lineNum + 1
              && (rl.status == Ok ==>
                    r == PollResult(rl.f.(progress := Progress(rl.f.pos, |f.data|, f.path)), Line(rl.line)))
              && (rl.status == Eof ==>
                    && r.out == NoLine && r.f.killed && r.f.progress == NoJob
                    && r.f.notices == f.notices + [JobDone(f.path)])
              && (rl.status != Ok && rl.status != Eof ==>
                    && r.out == NoLine && r.f.killed && r.f.progress == NoJob
                    && r.f.notices == f.notices)
    // The gate is never closed here.
    ensures r.f.readyNext == f.readyNext
    ensures r.out.Line? ==> r.f.progress.Progress? && r.f.progress.position <= r.f.progress.size
    ensures r.f.pos <= |r.f.data| && r.f.data == f.data && r.f.path == f.path
  {
    if !f.readyNext || !hasBuffer then PollResult(f, NoLine)
    else
      var rl := ReadLine(f, maxLine);
      match rl.status
      case Ok => PollResult(rl.f.(progress := Progress(rl.f.pos, |f.data|, f.path)), Line(rl.line))
      case Eof =>
        PollResult(rl.f.(progress := NoJob, notices := f.notices + [JobDone(f.path)], killed := true), NoLine)
      case _ => PollResult(rl.f.(progress := NoJob, killed := true), NoLine)
  }

  /** `stopJob`: announce the cancellation at the current line and kill the channel, whatever the gate. */
  function StopJob(f: State): (r: State)
    ensures r.killed && r.readyNext == f.readyNext
    ensures r.notices == f.notices + [Canceled(f.lineNum)]
    ensures r == f.(killed := true, notices := r.notices)
  {
    f.(notices := f.notices + [Canceled(f.lineNum)], killed := true)
  }

  /** Destruction of the channel empties the progress slot. */
  function Destroy(f: State): (r: State)
    ensures r.progress == NoJob && r == f.(progress := r.progress)
  {
    f.(progress := NoJob)
  }

  /**
   The channel as written keeps no gate of its own between lines: after a
   line is handed out the gate stays open, so a second poll reads the next
   line without waiting for an acknowledgment.
   */
  lemma PollDoesNotWaitForAck(f: State, maxLine: nat)
    requires f.pos <= |f.data| && f.readyNext
    requires PollLine(f, true, maxLine).out.Line?
    ensures var p := PollLine(f, true, maxLine).f;
            p.readyNext && PollLine(p, true, maxLine).f.lineNum == f.lineNum + 2
  {
  }

  // ---------------------------------------------------------------------------
  // Job invariant

  /**
   A job's state is consistent: the cursor lies within the file, and a
   progress value, when present, names this job's file with a position no
   further than its size.
   */
  predicate JobValid(f: State) {
    && f.pos <= |f.data|
    && (f.progress.Progress? ==>
          f.progress.position <= f.progress.size == |f.data| && f.progress.path == f.path)
  }

  lemma AckKeepsJobValid(f: State, status: Error)
    requires JobValid(f)
    ensures JobValid(Ack(f, status))
  {
  }

  lemma PollLineKeepsJobValid(f: State, hasBuffer: bool, maxLine: nat)
    requires JobValid(f)
    ensures JobValid(PollLine(f, hasBuffer, maxLine).f)
  {
  }

  lemma StopJobKeepsJobValid(f: State)
    requires JobValid(f)
    ensures JobValid(StopJob(f))
  {
  }

  lemma DestroyKeepsJobValid(f: State)
    requires JobValid(f)
    ensures JobValid(Destroy(f))
  {
  }

  /**
   The progress slot is written by the job and never read by it: what a poll
   reads and hands out does not depend on the slot's contents, so clearing
   it on destruction cannot change the lines of a job.
   */
  lemma ProgressIsWriteOnly(f: State, p: Progress, hasBuffer: bool, maxLine: nat)
    requires f.pos <= |f.data|
    ensures var a := PollLine(f, hasBuffer, maxLine);
            var b := PollLine(f.(progress := p), hasBuffer, maxLine);
            && a.out == b.out && a.f.pos == b.f.pos && a.f.killed == b.f.killed
            && a.f.notices == b.f.notices && a.f.lineNum == b.f.lineNum
  {
  }

  /** After destruction the slot is empty, whatever the job had written to it last. */
  lemma DestroyAfterPollClearsProgress(f: State, hasBuffer: bool, maxLine: nat)
    requires f.pos <= |f.data|
    ensures Destroy(PollLine(f, hasBuffer, maxLine).f).progress == NoJob
    ensures Destroy(PollLine(f, hasBuffer, maxLine).f).pos == PollLine(f, hasBuffer, maxLine).f.pos
  {
  }

  // ---------------------------------------------------------------------------
  // A whole job

  /** One round of a job: poll, and acknowledge with `Ok` a line handed out. */
  function Round(f: State, maxLine: nat): (r: State)
    requires f.pos <= |f.data|
    ensures r.pos <= |r.data| && r.data == f.data && r.path == f.path
  {
    var p := PollLine(f, true, maxLine);
    if p.out.Line? then Ack(p.f, Ok) else p.f
  }

  /**
   With the gate open a round either hands out a line, moving the cursor
   forward and leaving the gate open, or kills the channel.
   */
  lemma RoundProgress(f: State, maxLine: nat)
    requires f.pos <= |f.data| && f.readyNext
    ensures var r := Round(f, maxLine);
            r.killed || (f.pos < r.pos && r.readyNext)
  {
    if f.pos == |f.data| {
      ReadAtEndIsEof(f, maxLine);
    }
  }

  /** A job driven round by round, at most `rounds` times or until the channel is killed. */
  function Replay(f: State, maxLine: nat, rounds: nat): (r: State)
    requires f.pos <= |f.data|
    ensures r.pos <= |r.data| && r.data == f.data
    ensures rounds == 0 || f.killed ==> r == f
    decreases rounds
  {
    if rounds == 0 || f.killed then f
    else Replay(Round(f, maxLine), maxLine, rounds - 1)
  }

  /**
   A job that is acknowledged after every line always ends: with the gate
   open, one round per remaining byte plus one kills the channel.
   */
  lemma {:induction false} ReplayEnds(f: State, maxLine: nat, rounds: nat)
    requires f.pos <= |f.data| && f.readyNext
    requires rounds > |f.data| - f.pos
    ensures Replay(f, maxLine, rounds).killed
    decreases rounds
  {
    if !f.killed {
      var next := Round(f, maxLine);
      RoundProgress(f, maxLine);
      if !next.killed {
        ReplayEnds(next, maxLine, rounds - 1);
      }
    }
  }

  /** A canceled job reads nothing more: driving it further changes nothing. */
  lemma StopJobEndsJob(f: State, maxLine: nat, rounds: nat)
    requires f.pos <= |f.data|
    ensures Replay(StopJob(f), maxLine, rounds) == StopJob(f)
    ensures StopJob(f).notices[|StopJob(f).notices| - 1] == Canceled(f.lineNum)
  {
  }

  // ---------------------------------------------------------------------------
  // Scenarios

  /**
   A file holding a line, an empty line and another line is replayed as
   those three lines, each acknowledged; the fourth poll finds the end of
   the file, clears progress, announces the job as done and kills the channel.
   */
  lemma ThreeLinesThenEnd(f: State, l1: seq<byte>, l2: seq<byte>, maxLine: nat)
    requires f.data == l1 + [LF, LF] + l2 + [LF] && f.pos == 0 && f.readyNext
    requires CR !in l1 && LF !in l1 && |l1| < maxLine
    requires CR !in l2 && LF !in l2 && |l2| < maxLine
    ensures var p1 := PollLine(f, true, maxLine);
            var p2 := PollLine(Ack(p1.f, Ok), true, maxLine);
            var p3 := PollLine(Ack(p2.f, Ok), true, maxLine);
            var p4 := PollLine(Ack(p3.f, Ok), true, maxLine);
            && p1.out == Line(l1) && p2.out == Line([]) && p3.out == Line(l2)
            && p4.out == NoLine && p4.f.killed && p4.f.progress == NoJob
            && p4.f.notices == f.notices + [JobDone(f.path)]
            && p4.f.lineNum == f.lineNum + 4
  {
    var data := f.data;
    var p1 := PollLine(f, true, maxLine);
    assert data[0..|l1|] == l1 && data[|l1|] == LF;
    PlainLineReadBack(f, l1, maxLine);
    var a1 := Ack(p1.f, Ok);
    assert a1.pos == |l1| + 1 && data[a1.pos] == LF && data[a1.pos..a1.pos] == [];
    PlainLineReadBack(a1, [], maxLine);
    var p2 := PollLine(a1, true, maxLine);
    var a2 := Ack(p2.f, Ok);
    assert a2.pos == |l1| + 2;
    assert data[a2.pos..a2.pos + |l2|] == l2 && data[a2.pos + |l2|] == LF;
    PlainLineReadBack(a2, l2, maxLine);
    var p3 := PollLine(a2, true, maxLine);
    var a3 := Ack(p3.f, Ok);
    assert a3.pos == |data|;
    ReadAtEndIsEof(a3, maxLine);
  }

  /** The bytes of `TOOLONG` followed by a line feed. */
  const TooLongLine: seq<byte> := [84, 79, 79, 76, 79, 78, 71, 10]

  /**
   With room for five bytes, the line `TOOLONG` is reported too long after
   reading six bytes: the five stored ones and the one that found the
   buffer full.
   */
  lemma TooLongReportedAtSixthByte(f: State)
    requires f.data == TooLongLine && f.pos == 0
    ensures var r := ReadLine(f, 5);
            r.status == LineLengthExceeded && r.f.pos == 6 && r.line == [84, 79, 79, 76, 79]
  {
    var text := TooLongLine[..7];
    assert f.data[0..7] == text;
    LongLineStopsAfterLimit(f, text, 5);
  }

  /**
   With room for two bytes, `ab` followed by CR LF is too long: the carriage
   return finds the buffer full and is the last byte consumed.
   */
  lemma CarriageReturnFindsBufferFull(f: State)
    requires f.data == [97, 98, CR, LF] && f.pos == 0
    ensures var r := ReadLine(f, 2);
            r.status == LineLengthExceeded && r.f.pos == 3 && r.line == [97, 98]
  {
    assert Scan(f.data, 2, 2, [97, 98]) == (LineLengthExceeded, [97, 98], 3);
    assert Scan(f.data, 1, 2, [97]) == Scan(f.data, 2, 2, [97] + [98]);
    assert Scan(f.data, 0, 2, []) == Scan(f.data, 1, 2, [] + [97]);
  }
}

=== FILE: wschannel.dfy ===
/**
 One WebSocket client seen as a command channel (WebUI::WSChannel).

 The channel keeps a single realtime-character slot, a buffer that collects
 outbound text until a whole line is present, an inbound byte queue and a
 dead flag. The socket server is not modelled: every answer it would give
 (`canSend`, the success of `sendBIN`) is an input of the step, and the calls
 the channel makes on it are returned as a trace.
 */
module WSChannel {
  import opened Bytes

  /** Value of the realtime slot when no realtime character is pending. */
  const NoChar: int := -1

  datatype State = State(
    clientNum: byte,          // the server's slot number for this client
    dead: bool,
    rtchar: int,              // NoChar, or the pending realtime byte
    outputLine: seq<byte>,    // outbound bytes waiting for their line terminator
    queue: seq<byte>)         // inbound text, consumed line-wise elsewhere

  /** A freshly constructed channel: alive, nothing pending. */
  function Init(clientNum: byte): (ch: State)
    ensures ch.clientNum == clientNum && !ch.dead
    ensures ch.rtchar == NoChar && ch.outputLine == [] && ch.queue == []
  {
    State(clientNum, false, NoChar, [], [])
  }

  /** A call made on the socket server, in the order made. */
  datatype ServerCall =
    | CanSend(num: byte)
    | SendBIN(num: byte, data: seq<byte>)
    | SendTXT(num: byte, text: string)

  datatype ReadResult = ReadResult(ch: State, c: int)

  /**
   `read`: a dead channel yields nothing; otherwise the pending realtime
   character is handed out once and the slot is emptied.
   */
  function Read(ch: State): (r: ReadResult)
    ensures ch.dead ==> r.c == NoChar && r.ch == ch
    ensures !ch.dead ==> r.c == ch.rtchar && r.ch == ch.(rtchar := NoChar)
  {
    if ch.dead then ReadResult(ch, NoChar)
    else if ch.rtchar == NoChar then ReadResult(ch, NoChar)
    else ReadResult(ch.(rtchar := NoChar), ch.rtchar)
  }

  /** `pushRT`: store the realtime byte, replacing any that is pending. */
  function PushRT(ch: State, c: byte): (r: State)
    ensures r.rtchar == c
    ensures r == ch.(rtchar := c)
  {
    ch.(rtchar := c)
  }

  datatype PushResult = PushResult(ch: State, accepted: bool)

  /**
   `push`: a dead channel refuses input; a live one queues the payload as a C
   string, that is up to (not including) its first NUL byte.
   */
  function Push(ch: State, data: seq<byte>): (r: PushResult)
    ensures r.accepted <==> !ch.dead
    ensures ch.dead ==> r.ch == ch
    ensures !ch.dead ==> exists k :: 0 <= k <= |data| && r.ch == ch.(queue := ch.queue + data[..k])
                                   && NUL !in data[..k] && (k == |data| || data[k] == NUL)
  {
    if ch.dead then PushResult(ch, false)
    else
      var text := UpToNul(data);
      PushResult(ch.(queue := ch.queue + text), true)
  }

  datatype WriteResult = WriteResult(ch: State, written: nat, calls: seq<ServerCall>)

  predicate EndsLine(buf: seq<byte>) {
    |buf| > 0 && buf[|buf| - 1] == LF
  }

  /**
   The send-readiness step of `write` once a whole line `out` is ready:
   negative readiness kills the channel and reports nothing written (the
   pending line is kept), zero readiness drops the line but reports it
   accepted, positive readiness transmits it and kills the channel if the
   transmission fails. `size` is the caller's byte count.
   */
  function Transmit(ch: State, out: seq<byte>, size: nat, canSend: int, sendOk: bool): (r: WriteResult)
  {
    if canSend < 0 then WriteResult(ch.(dead := true), 0, [CanSend(ch.clientNum)])
    else if canSend == 0 then WriteResult(ch.(outputLine := []), size, [CanSend(ch.clientNum)])
    else WriteResult(ch.(dead := ch.dead || !sendOk, outputLine := []), size,
                     [CanSend(ch.clientNum), SendBIN(ch.clientNum, out)])
  }

  /**
   `write(buffer, size)`. `buffer` is `None` for a null pointer; the size is
   the length of the buffer. `canSend` and `sendOk` are what the server would
   answer if asked.
   */
  function Write(ch: State, buffer: Option<seq<byte>>, canSend: int, sendOk: bool): (r: WriteResult)
    // Null buffer, dead channel or nothing to write: nothing happens at all.
    ensures (buffer.None? || ch.dead || buffer.value == []) ==> r == WriteResult(ch, 0, [])
    // A partial line is only collected.
    ensures buffer.Some? && !ch.dead && buffer.value != [] && !EndsLine(buffer.value) ==>
              r == WriteResult(ch.(outputLine := ch.outputLine + buffer.value), |buffer.value|, [])
    // A completing line first asks the server, then acts on its answer.
    ensures buffer.Some? && !ch.dead && EndsLine(buffer.value) ==>
              var line := ch.outputLine + buffer.value;
              && |r.calls| >= 1 && r.calls[0] == CanSend(ch.clientNum)
              && (canSend < 0 ==> (r.ch.dead && r.written == 0 && |r.calls| == 1
                                  && r.ch.outputLine == (if ch.outputLine == [] then [] else line)))
              && (canSend == 0 ==> (!r.ch.dead && r.written == |buffer.value| && |r.calls| == 1
                                    && r.ch.outputLine == []))
              && (canSend > 0 ==> (r.calls == [CanSend(ch.clientNum), SendBIN(ch.clientNum, line)]
                                   && r.written == |buffer.value| && r.ch.outputLine == []
                                   && (r.ch.dead <==> !sendOk)))
    // Only the dead flag and the line buffer are ever touched.
    ensures r.ch.clientNum == ch.clientNum && r.ch.rtchar == ch.rtchar && r.ch.queue == ch.queue
  {
    match buffer
    case None => WriteResult(ch, 0, [])
    case Some(buf) =>
      if ch.dead || |buf| == 0 then WriteResult(ch, 0, [])
      else if |ch.outputLine| == 0 && EndsLine(buf) then
        // fast path: the buffer is itself a whole line
        assert ch.outputLine + buf == buf;
        Transmit(ch, buf, |buf|, canSend, sendOk)
      else
        var collected := ch.(outputLine := ch.outputLine + buf);
        if !EndsLine(buf) then WriteResult(collected, |buf|, [])
        else Transmit(collected, collected.outputLine, |buf|, canSend, sendOk)
  }

  /** Once read, a realtime character is gone: a second read yields nothing. */
  lemma ReadConsumesRealtimeChar(ch: State)
    ensures Read(Read(ch).ch).c == NoChar
  {
  }

  /** The slot holds one character: of two pushes before a read, the later one is read. */
  lemma LastRealtimeCharWins(ch: State, first: byte, second: byte)
    requires !ch.dead
    ensures Read(PushRT(PushRT(ch, first), second)).c == second
  {
  }

  /**
   Between writes a live channel never holds a finished line: the line buffer
   is empty or lacks its terminator.
   */
  predicate LineBufferPending(ch: State) {
    !ch.dead ==> !EndsLine(ch.outputLine)
  }

  lemma WritePreservesLineBufferPending(ch: State, buffer: Option<seq<byte>>, canSend: int, sendOk: bool)
    requires LineBufferPending(ch)
    ensures LineBufferPending(Write(ch, buffer, canSend, sendOk).ch)
  {
    if buffer.Some? && !ch.dead && buffer.value != [] && !EndsLine(buffer.value) {
      var line := ch.outputLine + buffer.value;
      assert line[|line| - 1] == buffer.value[|buffer.value| - 1];
    }
  }

  /** After negative readiness the channel is dead and every later write is a no-op. */
  lemma NegativeReadinessSilencesChannel(ch: State, line: seq<byte>, canSend: int, sendOk: bool,
                                         later: Option<seq<byte>>, canSend': int, sendOk': bool)
    requires !ch.dead && EndsLine(line) && canSend < 0
    ensures var r := Write(ch, Some(line), canSend, sendOk);
            && r.written == 0 && r.ch.dead
            && (forall c :: c in r.calls ==> !c.SendBIN?)
            && Write(r.ch, later, canSend', sendOk') == WriteResult(r.ch, 0, [])
  {
  }

  /** Concatenation of a sequence of buffers. */
  function Concat(bufs: seq<seq<byte>>): (r: seq<byte>)
  {
    if bufs == [] then [] else bufs[0] + Concat(bufs[1..])
  }

  datatype WriteAllResult = WriteAllResult(ch: State, calls: seq<ServerCall>)

  /** A sequence of writes, the server answering each readiness query the same way. */
  function WriteAll(ch: State, bufs: seq<seq<byte>>, canSend: int, sendOk: bool): (r: WriteAllResult)
    decreases |bufs|
  {
    if bufs == [] then WriteAllResult(ch, [])
    else
      var r := Write(ch, Some(bufs[0]), canSend, sendOk);
      var rest := WriteAll(r.ch, bufs[1..], canSend, sendOk);
      WriteAllResult(rest.ch, r.calls + rest.calls)
  }

  /**
   Partial writes followed by one terminating write reach a ready server as
   exactly one transmission of everything pending plus all the buffers, after
   which the line buffer is empty. Empty writes along the way change nothing.
   */
  lemma {:induction false} LineAssembledFromWrites(ch: State, bufs: seq<seq<byte>>, canSend: int, sendOk: bool)
    requires !ch.dead && |bufs| >= 1 && canSend > 0
    requires forall i :: 0 <= i < |bufs| - 1 ==> !EndsLine(bufs[i])
    requires EndsLine(bufs[|bufs| - 1])
    ensures var r := WriteAll(ch, bufs, canSend, sendOk);
            && r.calls == [CanSend(ch.clientNum), SendBIN(ch.clientNum, ch.outputLine + Concat(bufs))]
            && r.ch.outputLine == []
            && (r.ch.dead <==> !sendOk)
    decreases |bufs|
  {
    var r := Write(ch, Some(bufs[0]), canSend, sendOk);
    if |bufs| == 1 {
      assert bufs[1..] == [];
      assert Concat(bufs) == bufs[0] + Concat([]);
      assert Concat(bufs) == bufs[0];
      assert r.calls == [CanSend(ch.clientNum), SendBIN(ch.clientNum, ch.outputLine + bufs[0])];
      assert WriteAll(ch, bufs, canSend, sendOk) == WriteAllResult(r.ch, r.calls + []);
    } else {
      assert !EndsLine(bufs[0]);
      assert r.ch == ch.(outputLine := ch.outputLine + bufs[0]) && r.calls == [];
      LineAssembledFromWrites(r.ch, bufs[1..], canSend, sendOk);
      var rest := WriteAll(r.ch, bufs[1..], canSend, sendOk);
      assert WriteAll(ch, bufs, canSend, sendOk) == WriteAllResult(rest.ch, [] + rest.calls);
      assert Concat(bufs) == bufs[0] + Concat(bufs[1..]);
      assert ch.outputLine + Concat(bufs) == (ch.outputLine + bufs[0]) + Concat(bufs[1..]);
    }
  }
}

=== FILE: wschannels.dfy ===
/**
 The WebSocket channel multiplexer (WebUI::WSChannels).

 Channel objects are addressed by `ChannelId`, which stands for the object's
 address. It also serves as the identity `WSChannel::id()` reports in
 heartbeats and identification messages; `id()` is not part of this model
 and is taken to be that registry identity, not the client slot. The heap
 map holds every channel object ever created; the registry set holds those
 the channel registry has not killed. The three indices of the source are
 the client map (`_wsChannels`), the list of browser clients
 (`_webWsChannels`) and the last-used channel (`_lastWSChannel`), the latter
 an optional id rather than a pointer.
 */
module WSChannels {
  import opened Bytes
  import WSChannel

  type ChannelId = nat

  datatype State = State(
    heap: map<ChannelId, WSChannel.State>,
    registry: set<ChannelId>,
    wsChannels: map<byte, ChannelId>,
    webWsChannels: seq<ChannelId>,
    last: Option<ChannelId>,
    nextId: ChannelId)

  /** No index holds a dangling reference: everything named is an allocated channel. */
  predicate WellFormed(m: State) {
    && (forall k :: k in m.wsChannels ==> m.wsChannels[k] in m.heap)
    && (forall c :: c in m.webWsChannels ==> c in m.heap)
    && (m.last.Some? ==> m.last.value in m.heap)
    && m.registry <= m.heap.Keys
    && (forall c :: c in m.heap ==> c < m.nextId)
  }

  /**
   The indices agree with each other and with the registry: each client slot
   holds a distinct live channel created for that slot, and every browser
   client appears once in the list and is also in the client map.
   */
  predicate Valid(m: State) {
    && WellFormed(m)
    && (forall k :: k in m.wsChannels ==>
          m.wsChannels[k] in m.registry && m.heap[m.wsChannels[k]].clientNum == k)
    && (forall k1, k2 :: k1 in m.wsChannels && k2 in m.wsChannels && k1 != k2 ==>
          m.wsChannels[k1] != m.wsChannels[k2])
    && (forall c :: c in m.webWsChannels ==> c in m.wsChannels.Values)
    && Distinct(m.webWsChannels)
  }

  predicate Distinct(s: seq<ChannelId>) {
    forall i, j :: 0 <= i < j < |s| ==> s[i] != s[j]
  }

  /** The state before any client has connected. */
  function Empty(): (m: State)
    ensures Valid(m)
    ensures m.wsChannels == map[] && m.webWsChannels == [] && m.last == None
  {
    State(map[], {}, map[], [], None, 0)
  }

  /** `std::list::remove`: every occurrence of `x` dropped, the rest kept in order. */
  function Without(s: seq<ChannelId>, x: ChannelId): (r: seq<ChannelId>)
    ensures forall y :: y in r <==> y in s && y != x
    ensures |r| <= |s|
    ensures x !in s ==> r == s
  {
    if s == [] then []
    else (if s[0] == x then [] else [s[0]]) + Without(s[1..], x)
  }

  lemma {:induction false} WithoutKeepsDistinct(s: seq<ChannelId>, x: ChannelId)
    requires Distinct(s)
    ensures Distinct(Without(s, x))
  {
    if s != [] {
      WithoutKeepsDistinct(s[1..], x);
      assert s[0] !in s[1..];
    }
  }

  // ---------------------------------------------------------------------------
  // Identity resolution

  datatype Lookup = Lookup(m: State, found: Option<ChannelId>)

  /**
   The client-map key an `int` page id selects: the conversion to the map's
   unsigned 8-bit key type keeps the value modulo 256.
   */
  function PageKey(pageid: int): (k: byte)
    ensures 0 <= pageid < 256 ==> k == pageid
    ensures (k - pageid) % 256 == 0
  {
    pageid % 256
  }

  /**
   `getWSChannel(pageid)`. An explicit page id is looked up in the client map.
   The page id -1 (an old WebUI that sends none) selects the last-used channel,
   but only while it is still a value of the client map. Either way the result,
   found or not, becomes the last-used channel.
   */
  function GetWSChannel(m: State, pageid: int): (r: Lookup)
    ensures r.m == m.(last := r.found)
    ensures pageid != -1 ==>
              (r.found.Some? <==> PageKey(pageid) in m.wsChannels)
              && (r.found.Some? ==> r.found.value == m.wsChannels[PageKey(pageid)])
    ensures pageid == -1 ==>
              (r.found.Some? <==> m.last.Some? && m.last.value in m.wsChannels.Values)
              && (r.found.Some? ==> r.found == m.last)
    ensures r.found.Some? ==> r.found.value in m.wsChannels.Values
    ensures WellFormed(m) ==> WellFormed(r.m)
  {
    var found :=
      if pageid != -1 then
        (if PageKey(pageid) in m.wsChannels then Some(m.wsChannels[PageKey(pageid)]) else None)
      else if m.last.Some? && m.last.value in m.wsChannels.Values then m.last
      else None;
    Lookup(m.(last := found), found)
  }

  /** Whatever resolves is a channel the registry still holds. */
  lemma ResolvedChannelIsRegistered(m: State, pageid: int)
    requires Valid(m)
    ensures var r := GetWSChannel(m, pageid);
            r.found.Some? ==> r.found.value in m.registry && r.found.value in m.heap
  {
  }

  // ---------------------------------------------------------------------------
  // Removal

  /**
   `removeChannel(num)` (client disconnect): nothing happens for an unknown
   slot; otherwise the slot's channel leaves the browser list and the
   registry and the slot is erased. The last-used channel is left as it is.
   */
  function RemoveChannelByNum(m: State, num: byte): (r: State)
    ensures num !in m.wsChannels ==> r == m
    ensures num in m.wsChannels ==>
              var c := m.wsChannels[num];
              && r.wsChannels == m.wsChannels - {num}
              && r.webWsChannels == Without(m.webWsChannels, c)
              && r.registry == m.registry - {c}
              && r.heap == m.heap && r.last == m.last && r.nextId == m.nextId
    ensures WellFormed(m) ==> WellFormed(r)
  {
    if num !in m.wsChannels then m
    else
      var c := m.wsChannels[num];
      m.(webWsChannels := Without(m.webWsChannels, c),
         registry := m.registry - {c},
         wsChannels := m.wsChannels - {num})
  }

  /**
   `removeChannel(channel)`: the last-used channel is cleared, the channel
   leaves the browser list and the registry, and every client slot holding
   it is erased.
   */
  function RemoveChannel(m: State, c: ChannelId): (r: State)
    ensures r.last == None
    ensures c !in r.webWsChannels && c !in r.registry && c !in r.wsChannels.Values
    ensures forall k :: k in r.wsChannels <==> k in m.wsChannels && m.wsChannels[k] != c
    ensures forall k :: k in r.wsChannels ==> r.wsChannels[k] == m.wsChannels[k]
    ensures r.webWsChannels == Without(m.webWsChannels, c)
    ensures r.registry == m.registry - {c}
    ensures r.heap == m.heap && r.nextId == m.nextId
    ensures WellFormed(m) ==> WellFormed(r)
  {
    m.(last := None,
       webWsChannels := Without(m.webWsChannels, c),
       registry := m.registry - {c},
       wsChannels := map k | k in m.wsChannels && m.wsChannels[k] != c :: m.wsChannels[k])
  }

  /** After a disconnect no index leads to the slot's channel any more. */
  lemma RemovedByNumIsUnreachable(m: State, num: byte, pageid: int)
    requires Valid(m) && num in m.wsChannels
    ensures var c := m.wsChannels[num];
            var r := RemoveChannelByNum(m, num);
            && c !in r.wsChannels.Values && c !in r.webWsChannels && c !in r.registry
            && GetWSChannel(r, pageid).found != Some(c)
  {
  }

  /** After removal by reference no index leads to the channel any more. */
  lemma RemovedChannelIsUnreachable(m: State, c: ChannelId, pageid: int)
    ensures var r := RemoveChannel(m, c);
            && c !in r.wsChannels.Values && c !in r.webWsChannels && c !in r.registry
            && r.last == None
            && GetWSChannel(r, pageid).found != Some(c)
  {
  }

  // ---------------------------------------------------------------------------
  // Out-of-band text messages

  datatype SendResult = SendResult(m: State, sent: bool, calls: seq<WSChannel.ServerCall>)

  /**
   `sendTXT`: a dead channel refuses; otherwise the text goes to the server,
   and if the server reports failure the channel is marked dead and removed
   from every index. `ok` is the server's answer.
   */
  function SendTXT(m: State, c: ChannelId, text: string, ok: bool): (r: SendResult)
    requires c in m.heap
    ensures r.sent <==> !m.heap[c].dead && ok
    ensures m.heap[c].dead ==> r == SendResult(m, false, [])
    ensures !m.heap[c].dead ==> r.calls == [WSChannel.SendTXT(m.heap[c].clientNum, text)]
    ensures r.sent ==> r.m == m
    ensures !m.heap[c].dead && !ok ==>
              r.m == RemoveChannel(m, c).(heap := m.heap[c := m.heap[c].(dead := true)])
    ensures r.m.heap.Keys == m.heap.Keys && r.m.nextId == m.nextId
    ensures forall d :: d in m.heap && d != c ==> r.m.heap[d] == m.heap[d]
    ensures WellFormed(m) ==> WellFormed(r.m)
  {
    var ch := m.heap[c];
    if ch.dead then SendResult(m, false, [])
    else if !ok then
      var killed := m.(heap := m.heap[c := ch.(dead := true)]);
      SendResult(RemoveChannel(killed, c), false, [WSChannel.SendTXT(ch.clientNum, text)])
    else SendResult(m, true, [WSChannel.SendTXT(ch.clientNum, text)])
  }

  datatype ErrorResult = ErrorResult(m: State, hasError: bool, calls: seq<WSChannel.ServerCall>)

  /**
   `sendError`: the message goes to the resolved channel; the result is true
   (an error) when nothing resolves or the channel could not be reached.
   */
  function SendError(m: State, pageid: int, err: string, ok: bool): (r: ErrorResult)
    requires WellFormed(m)
    ensures var g := GetWSChannel(m, pageid);
            && (g.found.None? ==> r == ErrorResult(g.m, true, []))
            && (g.found.Some? ==>
                  && (r.hasError <==> m.heap[g.found.value].dead || !ok)
                  && r.calls == SendTXT(g.m, g.found.value, err, ok).calls
                  && r.m == SendTXT(g.m, g.found.value, err, ok).m)
    ensures WellFormed(r.m)
  {
    var g := GetWSChannel(m, pageid);
    match g.found
    case None => ErrorResult(g.m, true, [])
    case Some(c) =>
      var s := SendTXT(g.m, c, err, ok);
      ErrorResult(s.m, !s.sent, s.calls)
  }

  // ---------------------------------------------------------------------------
  // Inbound commands

  /** Lead byte of the two-byte form old WebUIs send for a high-bit realtime byte. */
  const LegacyLead: byte := 0xC2

  datatype Route = Realtime(c: byte) | Text(line: seq<byte>)

  /** A byte as a signed `char` holds it: values from 0x80 up read as negative. */
  function AsSignedChar(b: byte): (v: int)
    ensures -128 <= v < 128 && (v - b) % 256 == 0
    ensures b < 128 <==> v == b
  {
    if b < 128 then b else b - 256
  }

  /**
   The source's comparison `cmd[0] == 0xc2`: the byte is read as a plain
   `char`, which is sign-extended on a target where `char` is signed.
   */
  function IsLegacyLead(b: byte, signedChar: bool): (r: bool) {
    (if signedChar then AsSignedChar(b) else b) == LegacyLead as int
  }

  /**
   How `runGCode` routes a payload, as the source writes it, for either
   signedness of `char`: a lone realtime byte, or a realtime byte after the
   legacy lead byte (optionally followed by a NUL), takes the realtime path;
   anything else is text and gets a line terminator if it lacks one. `isRT`
   is the firmware's realtime-byte classifier.
   */
  function ClassifyOn(cmd: seq<byte>, isRT: byte -> bool, signedChar: bool): (r: Route)
    // With a signed `char` the legacy forms are never recognised.
    ensures signedChar ==> (r.Realtime? <==> |cmd| == 1 && isRT(cmd[0]))
  {
    if |cmd| == 3 && IsLegacyLead(cmd[0], signedChar) && isRT(cmd[1]) && cmd[2] == NUL then Realtime(cmd[1])
    else if |cmd| == 2 && IsLegacyLead(cmd[0], signedChar) && isRT(cmd[1]) then Realtime(cmd[1])
    else if |cmd| == 1 && isRT(cmd[0]) then Realtime(cmd[0])
    else if |cmd| > 0 && cmd[|cmd| - 1] != LF then Text(cmd + [LF])
    else Text(cmd)
  }

  /**
   The routing with bytes read unsigned, as the legacy-client handling
   intends; the rest of the model uses this one.
   */
  function Classify(cmd: seq<byte>, isRT: byte -> bool): (r: Route)
    ensures r.Realtime? <==>
              || (|cmd| == 1 && isRT(cmd[0]))
              || (|cmd| == 2 && cmd[0] == LegacyLead && isRT(cmd[1]))
              || (|cmd| == 3 && cmd[0] == LegacyLead && isRT(cmd[1]) && cmd[2] == NUL)
    ensures r.Realtime? ==> isRT(r.c) && r.c == (if |cmd| == 1 then cmd[0] else cmd[1])
    ensures r.Text? ==> |r.line| >= |cmd| && r.line[..|cmd|] == cmd
    ensures r.Text? && cmd != [] ==> r.line[|r.line| - 1] == LF && |r.line| <= |cmd| + 1
    ensures r.Text? && cmd != [] && cmd[|cmd| - 1] == LF ==> r.line == cmd
    ensures r.Text? && cmd == [] ==> r.line == []
  {
    ClassifyOn(cmd, isRT, false)
  }

  /** The legacy two-byte encoding of a realtime byte. */
  function LegacyEncode(c: byte): (r: seq<byte>) {
    [LegacyLead, c]
  }

  /** Every encoding of a realtime byte the clients use is decoded back to that byte. */
  lemma RealtimeEncodingsRoundTrip(c: byte, isRT: byte -> bool)
    requires isRT(c)
    ensures Classify([c], isRT) == Realtime(c)
    ensures Classify(LegacyEncode(c), isRT) == Realtime(c)
    ensures Classify(LegacyEncode(c) + [NUL], isRT) == Realtime(c)
  {
  }

  /**
   Where `char` is signed, the legacy encoding of a realtime byte, with or
   without its NUL, is queued as text instead of reaching the realtime slot.
   */
  lemma SignedCharQueuesLegacyEncoding(c: byte, isRT: byte -> bool)
    requires isRT(c)
    ensures ClassifyOn(LegacyEncode(c), isRT, true).Text?
    ensures ClassifyOn(LegacyEncode(c) + [NUL], isRT, true).Text?
    ensures Classify(LegacyEncode(c), isRT) == Realtime(c)
    // the three-byte form then reaches the queue without any line feed
    ensures c != NUL ==> UpToNul(ClassifyOn(LegacyEncode(c) + [NUL], isRT, true).line) == LegacyEncode(c)
  {
    if c != NUL {
      var line := LegacyEncode(c) + [NUL] + [LF];
      assert line == [LegacyLead, c, NUL, LF];
      UpToNulAt(line, 2);
    }
  }

  datatype RunResult = RunResult(m: State, hasError: bool)

  /**
   `runGCode(pageid, cmd)`: resolve the channel, then either set its realtime
   slot or queue the command as a text line. The result is true (an error)
   when no channel resolves or the channel refuses the text.
   */
  function RunGCode(m: State, pageid: int, cmd: seq<byte>, isRT: byte -> bool): (r: RunResult)
    requires WellFormed(m)
    ensures var g := GetWSChannel(m, pageid);
            && (g.found.None? ==> r == RunResult(g.m, true))
            && (g.found.Some? ==>
                  var c := g.found.value;
                  // only text to a dead channel fails once a channel resolves
                  && (r.hasError <==> Classify(cmd, isRT).Text? && m.heap[c].dead)
                  && r.m == g.m.(heap := r.m.heap)
                  && r.m.heap.Keys == m.heap.Keys
                  && (forall d :: d in m.heap && d != c ==> r.m.heap[d] == m.heap[d]))
    ensures WellFormed(r.m)
  {
    var g := GetWSChannel(m, pageid);
    match g.found
    case None => RunResult(g.m, true)
    case Some(c) =>
      var ch := g.m.heap[c];
      match Classify(cmd, isRT)
      case Realtime(b) => RunResult(g.m.(heap := g.m.heap[c := WSChannel.PushRT(ch, b)]), false)
      case Text(line) =>
        var p := WSChannel.Push(ch, line);
        RunResult(g.m.(heap := g.m.heap[c := p.ch]), !p.accepted)
  }

  /**
   A realtime command sets the resolved channel's realtime slot and leaves
   its text queue alone, whether or not the channel is dead.
   */
  lemma RealtimeCommandBypassesQueue(m: State, pageid: int, cmd: seq<byte>, isRT: byte -> bool)
    requires WellFormed(m)
    requires GetWSChannel(m, pageid).found.Some?
    requires Classify(cmd, isRT).Realtime?
    ensures var c := GetWSChannel(m, pageid).found.value;
            var r := RunGCode(m, pageid, cmd, isRT);
            && !r.hasError
            && r.m.heap[c].queue == m.heap[c].queue
            && r.m.heap[c].rtchar == Classify(cmd, isRT).c
            && WSChannel.Read(r.m.heap[c]).c == (if m.heap[c].dead then WSChannel.NoChar else Classify(cmd, isRT).c)
  {
  }

  /**
   A text command without NUL bytes reaches a live channel's queue whole,
   terminated by exactly one added line feed when it lacked one; the
   realtime slot is untouched.
   */
  lemma TextCommandQueuedAsLine(m: State, pageid: int, cmd: seq<byte>, isRT: byte -> bool)
    requires WellFormed(m)
    requires GetWSChannel(m, pageid).found.Some?
    requires !m.heap[GetWSChannel(m, pageid).found.value].dead
    requires Classify(cmd, isRT).Text? && NUL !in cmd
    ensures var c := GetWSChannel(m, pageid).found.value;
            var r := RunGCode(m, pageid, cmd, isRT);
            && !r.hasError
            && r.m.heap[c].rtchar == m.heap[c].rtchar
            && r.m.heap[c].queue == m.heap[c].queue + cmd
                                    + (if cmd == [] || cmd[|cmd| - 1] == LF then [] else [LF])
  {
    var line := Classify(cmd, isRT).line;
    assert NUL !in line;
    assert UpToNul(line) == line;
  }

  /**
   Any text command reaches a live channel's queue as `push` copies it: the
   routed line up to its first NUL. The realtime slot is untouched.
   */
  lemma TextCommandQueued(m: State, pageid: int, cmd: seq<byte>, isRT: byte -> bool)
    requires WellFormed(m)
    requires GetWSChannel(m, pageid).found.Some?
    requires !m.heap[GetWSChannel(m, pageid).found.value].dead
    requires Classify(cmd, isRT).Text?
    ensures var c := GetWSChannel(m, pageid).found.value;
            var r := RunGCode(m, pageid, cmd, isRT);
            && !r.hasError
            && r.m.heap[c].rtchar == m.heap[c].rtchar
            && r.m.heap[c].queue == m.heap[c].queue + UpToNul(Classify(cmd, isRT).line)
  {
  }

  /**
   A text command holding a NUL loses the line feed routing added: the
   legacy form `[0xC2, x, 0]` of a byte `x` that is not realtime is queued
   as `[0xC2, x]` alone, so it runs into whatever command is queued next.
   */
  lemma EmbeddedNulDropsAddedLineFeed(m: State, pageid: int, x: byte, isRT: byte -> bool)
    requires WellFormed(m)
    requires GetWSChannel(m, pageid).found.Some?
    requires !m.heap[GetWSChannel(m, pageid).found.value].dead
    requires !isRT(x) && x != NUL
    ensures var c := GetWSChannel(m, pageid).found.value;
            var r := RunGCode(m, pageid, LegacyEncode(x) + [NUL], isRT);
            && Classify(LegacyEncode(x) + [NUL], isRT) == Text(LegacyEncode(x) + [NUL, LF])
            && !r.hasError
            && r.m.heap[c].queue == m.heap[c].queue + [LegacyLead, x]
  {
    var cmd := LegacyEncode(x) + [NUL];
    assert cmd == [LegacyLead, x, NUL];
    assert cmd + [LF] == [LegacyLead, x, NUL, LF];
    UpToNulAt(cmd + [LF], 2);
  }

  /** A text command to a dead channel is refused and changes nothing in it. */
  lemma TextCommandToDeadChannelFails(m: State, pageid: int, cmd: seq<byte>, isRT: byte -> bool)
    requires WellFormed(m)
    requires GetWSChannel(m, pageid).found.Some?
    requires m.heap[GetWSChannel(m, pageid).found.value].dead
    requires Classify(cmd, isRT).Text?
    ensures var r := RunGCode(m, pageid, cmd, isRT);
            r.hasError && r.m == GetWSChannel(m, pageid).m
  {
    var c := GetWSChannel(m, pageid).found.value;
    assert GetWSChannel(m, pageid).m.heap[c := m.heap[c]] == GetWSChannel(m, pageid).m.heap;
  }

  // ---------------------------------------------------------------------------
  // Heartbeats

  /** The heartbeat text, tagged with the channel's identity. */
  function PingText(c: ChannelId): (r: string) {
    "PING:" + DecimalString(c)
  }

  /** The identity a heartbeat carries can be read back from its text. */
  lemma PingTextNamesChannel(c: ChannelId)
    ensures PingText(c)[..5] == "PING:"
    ensures ParseDecimal(PingText(c)[5..]) == c
  {
    assert PingText(c)[5..] == DecimalString(c);
    DecimalRoundTrip(c);
  }

  datatype PingResult = PingResult(m: State, calls: seq<WSChannel.ServerCall>)

  /** Heartbeats to each channel of `cs` in order; `ok` is the server's answer per channel. */
  function PingEach(m: State, cs: seq<ChannelId>, ok: ChannelId -> bool): (r: PingResult)
    requires forall c :: c in cs ==> c in m.heap
    ensures r.m.heap.Keys == m.heap.Keys && r.m.nextId == m.nextId
    ensures forall d :: d in m.heap && d !in cs ==> r.m.heap[d] == m.heap[d]
    // a channel outside the round keeps its registration, its browser-list membership and its slots
    ensures forall d :: d !in cs ==> (d in r.m.registry <==> d in m.registry)
    ensures forall d :: d !in cs ==> (d in r.m.webWsChannels <==> d in m.webWsChannels)
    ensures forall k :: k in m.wsChannels && m.wsChannels[k] !in cs ==>
              k in r.m.wsChannels && r.m.wsChannels[k] == m.wsChannels[k]
    // nothing is added to any index
    ensures r.m.registry <= m.registry
    ensures forall k :: k in r.m.wsChannels ==> k in m.wsChannels && r.m.wsChannels[k] == m.wsChannels[k]
    // one refused heartbeat to a live channel clears the last-used channel, whichever client it was
    ensures r.m.last == (if exists c :: c in cs && !m.heap[c].dead && !ok(c) then None else m.last)
    ensures WellFormed(m) ==> WellFormed(r.m)
    decreases |cs|
  {
    if cs == [] then PingResult(m, [])
    else
      var s := SendTXT(m, cs[0], PingText(cs[0]), ok(cs[0]));
      var rest := PingEach(s.m, cs[1..], ok);
      PingResult(rest.m, s.calls + rest.calls)
  }

  /**
   `sendPing`: one heartbeat to each browser client, over the list as it
   stands when the broadcast starts.
   */
  function SendPing(m: State, ok: ChannelId -> bool): (r: PingResult)
    requires WellFormed(m)
    ensures Distinct(m.webWsChannels) ==> r.calls == ExpectedPings(m.heap, m.webWsChannels)
    // clients outside the browser list keep their records, registrations and slots
    ensures r.m.heap.Keys == m.heap.Keys
    ensures forall d :: d in m.heap && d !in m.webWsChannels ==> r.m.heap[d] == m.heap[d]
    ensures forall d :: d !in m.webWsChannels ==> (d in r.m.registry <==> d in m.registry)
    ensures forall k :: k in m.wsChannels && m.wsChannels[k] !in m.webWsChannels ==>
              k in r.m.wsChannels && r.m.wsChannels[k] == m.wsChannels[k]
    ensures r.m.registry <= m.registry
    ensures r.m.last == (if exists c :: c in m.webWsChannels && !m.heap[c].dead && !ok(c) then None else m.last)
    ensures WellFormed(r.m)
  {
    if Distinct(m.webWsChannels) then
      PingEachReachesEachOnce(m, m.webWsChannels, ok);
      PingEach(m, m.webWsChannels, ok)
    else PingEach(m, m.webWsChannels, ok)
  }

  /**
   Reference for the heartbeats a broadcast over `cs` must produce: one per
   live channel, in list order, to that channel's client, tagged with its identity.
   */
  function ExpectedPings(heap: map<ChannelId, WSChannel.State>, cs: seq<ChannelId>): (r: seq<WSChannel.ServerCall>)
    requires forall c :: c in cs ==> c in heap
  {
    if cs == [] then []
    else
      (if heap[cs[0]].dead then [] else [WSChannel.SendTXT(heap[cs[0]].clientNum, PingText(cs[0]))])
      + ExpectedPings(heap, cs[1..])
  }

  lemma {:induction false} ExpectedPingsFrame(h1: map<ChannelId, WSChannel.State>,
                                              h2: map<ChannelId, WSChannel.State>, cs: seq<ChannelId>)
    requires forall c :: c in cs ==> c in h1 && c in h2 && h1[c] == h2[c]
    ensures ExpectedPings(h1, cs) == ExpectedPings(h2, cs)
  {
    if cs != [] {
      ExpectedPingsFrame(h1, h2, cs[1..]);
    }
  }

  /**
   A broadcast over distinct channels reaches every live one exactly once,
   in order, each with its own identity; exactly the live channels whose
   heartbeat failed leave the browser list.
   */
  lemma {:induction false} PingEachReachesEachOnce(m: State, cs: seq<ChannelId>, ok: ChannelId -> bool)
    requires forall c :: c in cs ==> c in m.heap
    requires Distinct(cs)
    ensures PingEach(m, cs, ok).calls == ExpectedPings(m.heap, cs)
    ensures forall c :: c in PingEach(m, cs, ok).m.webWsChannels <==>
                          c in m.webWsChannels && !(c in cs && !m.heap[c].dead && !ok(c))
    decreases |cs|
  {
    if cs != [] {
      var s := SendTXT(m, cs[0], PingText(cs[0]), ok(cs[0]));
      assert forall c :: c in cs[1..] ==> c != cs[0] by {
        forall c | c in cs[1..] ensures c != cs[0] {
          var j :| 0 <= j < |cs[1..]| && cs[1..][j] == c;
          assert cs[j + 1] == c;
        }
      }
      assert Distinct(cs[1..]) by {
        forall i, j | 0 <= i < j < |cs[1..]| ensures cs[1..][i] != cs[1..][j] {
          assert cs[1..][i] == cs[i + 1] && cs[1..][j] == cs[j + 1];
        }
      }
      PingEachReachesEachOnce(s.m, cs[1..], ok);
      ExpectedPingsFrame(s.m.heap, m.heap, cs[1..]);
    }
  }

  /** Every live browser client gets exactly one heartbeat carrying its own identity. */
  lemma SendPingReachesEveryBrowserClient(m: State, ok: ChannelId -> bool)
    requires Valid(m)
    ensures SendPing(m, ok).calls == ExpectedPings(m.heap, m.webWsChannels)
    ensures forall c :: c in SendPing(m, ok).m.webWsChannels <==>
                          c in m.webWsChannels && (m.heap[c].dead || ok(c))
  {
    PingEachReachesEachOnce(m, m.webWsChannels, ok);
  }

  /**
   The source broadcasts with a range-for loop over the browser list itself.
   A failing heartbeat removes the channel the loop stands on from that very
   list before the loop advances: the list node under the iterator is erased.
   */
  lemma PingFailureErasesIteratedNode(m: State, i: nat, ok: ChannelId -> bool)
    requires Valid(m) && i < |m.webWsChannels|
    requires !m.heap[m.webWsChannels[i]].dead && !ok(m.webWsChannels[i])
    ensures var c := m.webWsChannels[i];
            var r := SendTXT(m, c, PingText(c), ok(c));
            && c !in r.m.webWsChannels
            && |r.m.webWsChannels| == |m.webWsChannels| - 1
  {
    WithoutDropsOne(m.webWsChannels, i);
  }

  lemma {:induction false} WithoutDropsOne(s: seq<ChannelId>, i: nat)
    requires Distinct(s) && i < |s|
    ensures |Without(s, s[i])| == |s| - 1
  {
    if i == 0 {
      assert s[0] !in s[1..];
    } else {
      assert Distinct(s[1..]) by {
        forall a, b | 0 <= a < b < |s[1..]| ensures s[1..][a] != s[1..][b] {
          assert s[1..][a] == s[a + 1] && s[1..][b] == s[b + 1];
        }
      }
      WithoutDropsOne(s[1..], i - 1);
      assert s[1..][i - 1] == s[i];
    }
  }

  // ---------------------------------------------------------------------------
  // Server events

  datatype Event =
    | Connected(num: byte, uri: string, currentIdOk: bool, activeIdOk: bool)
    | Disconnected(num: byte)
    | Payload(num: byte, data: seq<byte>)
    | Other

  datatype EventResult = EventResult(m: State, calls: seq<WSChannel.ServerCall>)

  /** The message telling a new browser client its slot number. */
  function CurrentIdText(num: byte): (r: string) {
    "CURRENT_ID:" + DecimalString(num)
  }

  /** The message telling a new browser client its channel identity. */
  function ActiveIdText(c: ChannelId): (r: string) {
    "ACTIVE_ID:" + DecimalString(c)
  }

  /** The channel is dead and no index or the registry refers to it any more. */
  predicate ChannelRemoved(m: State, c: ChannelId) {
    && c in m.heap && m.heap[c].dead
    && m.last == None && c !in m.registry
    && c !in m.wsChannels.Values && c !in m.webWsChannels
  }

  /**
   A client connects: a new channel is created, registered, indexed under its
   slot and made the last-used channel. A browser client (the root resource)
   is also put at the front of the browser list and told its slot number and
   its channel identity.
   */
  function HandleConnect(m: State, num: byte, uri: string, currentIdOk: bool, activeIdOk: bool): (r: EventResult)
    requires WellFormed(m)
    ensures m.nextId !in m.heap && r.m.nextId == m.nextId + 1
    ensures r.m.heap.Keys == m.heap.Keys + {m.nextId}
    ensures forall d :: d in m.heap ==> r.m.heap[d] == m.heap[d]
    ensures uri == "/" ==> r == ConnectBrowser(m, num, currentIdOk, activeIdOk)
    ensures uri != "/" ==>
              && r.calls == []
              && r.m.wsChannels == m.wsChannels[num := m.nextId]
              && r.m.last == Some(m.nextId)
              && r.m.registry == m.registry + {m.nextId}
              && r.m.heap[m.nextId] == WSChannel.Init(num)
              && r.m.webWsChannels == m.webWsChannels
    ensures WellFormed(r.m)
  {
    if uri == "/" then ConnectBrowser(m, num, currentIdOk, activeIdOk)
    else EventResult(OpenChannel(m, num), [])
  }

  /**
   A root-resource (browser) client connects: its fresh channel is opened,
   put at the front of the browser list and identified to the client.
   */
  function ConnectBrowser(m: State, num: byte, currentIdOk: bool, activeIdOk: bool): (r: EventResult)
    requires WellFormed(m)
    ensures m.nextId !in m.heap && r.m.nextId == m.nextId + 1
    ensures r.m.heap.Keys == m.heap.Keys + {m.nextId}
    ensures forall d :: d in m.heap ==> r.m.heap[d] == m.heap[d]
    ensures |r.calls| >= 1 && r.calls[0] == WSChannel.SendTXT(num, CurrentIdText(num))
    ensures currentIdOk ==>
              r.calls == [WSChannel.SendTXT(num, CurrentIdText(num)),
                          WSChannel.SendTXT(num, ActiveIdText(m.nextId))]
    // A refused identification message kills the new channel and removes it from every index;
    // after a refused CURRENT_ID the ACTIVE_ID message is not attempted.
    ensures !currentIdOk ==>
              && r.calls == [WSChannel.SendTXT(num, CurrentIdText(num))]
              && ChannelRemoved(r.m, m.nextId)
    ensures currentIdOk && !activeIdOk ==>
              && r.calls == [WSChannel.SendTXT(num, CurrentIdText(num)),
                             WSChannel.SendTXT(num, ActiveIdText(m.nextId))]
              && ChannelRemoved(r.m, m.nextId)
    // Every other entry is kept: a refused browser client leaves its slot vacant and the
    // browser list and the registry as they were before the connection.
    ensures !(currentIdOk && activeIdOk) ==>
              && r.m.wsChannels == m.wsChannels - {num}
              && r.m.webWsChannels == m.webWsChannels
              && r.m.registry == m.registry
    ensures currentIdOk && activeIdOk ==>
              && r.m.wsChannels == m.wsChannels[num := m.nextId]
              && r.m.last == Some(m.nextId)
              && r.m.registry == m.registry + {m.nextId}
              && r.m.heap[m.nextId] == WSChannel.Init(num)
              && r.m.webWsChannels == [m.nextId] + m.webWsChannels
    ensures WellFormed(r.m)
  {
    var c := m.nextId;
    var m2 := OpenChannel(m, num).(webWsChannels := [c] + m.webWsChannels);
    assert WellFormed(m2);
    assert m2.heap[c] == WSChannel.Init(num);
    RefusedChannelLeavesNoTrace(m, num);
    IdentifyBrowser(m2, c, currentIdOk, activeIdOk)
  }

  /**
   The channel a connection creates: a fresh identity, registered, indexed
   under the client's slot (replacing any channel the slot held) and made
   the last-used channel.
   */
  function OpenChannel(m: State, num: byte): (r: State)
    requires WellFormed(m)
    ensures m.nextId !in m.heap && r.nextId == m.nextId + 1
    ensures r.heap == m.heap[m.nextId := WSChannel.Init(num)]
    ensures r.registry == m.registry + {m.nextId}
    ensures r.wsChannels == m.wsChannels[num := m.nextId] && r.last == Some(m.nextId)
    ensures r.webWsChannels == m.webWsChannels
    ensures WellFormed(r)
  {
    var c := m.nextId;
    m.(heap := m.heap[c := WSChannel.Init(num)],
       registry := m.registry + {c},
       wsChannels := m.wsChannels[num := c],
       last := Some(c),
       nextId := c + 1)
  }

  /** Erasing the entries holding a channel that only `num` held erases exactly `num`. */
  lemma FilterFreshEntry(ws: map<byte, ChannelId>, num: byte, c: ChannelId, r: map<byte, ChannelId>)
    requires forall k :: k in ws ==> ws[k] != c
    requires forall k :: k in r <==> k in ws[num := c] && ws[num := c][k] != c
    requires forall k :: k in r ==> r[k] == ws[num := c][k]
    ensures r == ws - {num}
  {
    assert r.Keys == (ws - {num}).Keys;
  }

  /**
   Removing a browser client's channel right after it was opened gives back
   the browser list and the registry as they were, with the client's slot
   vacant.
   */
  lemma RefusedChannelLeavesNoTrace(m: State, num: byte)
    requires WellFormed(m)
    ensures var c := m.nextId;
            var r := RemoveChannel(OpenChannel(m, num).(webWsChannels := [c] + m.webWsChannels), c);
            && r.wsChannels == m.wsChannels - {num}
            && r.webWsChannels == m.webWsChannels
            && r.registry == m.registry
  {
    var c := m.nextId;
    var m2 := OpenChannel(m, num).(webWsChannels := [c] + m.webWsChannels);
    var r := RemoveChannel(m2, c);
    assert forall k :: k in m.wsChannels ==> m.wsChannels[k] != c;
    FilterFreshEntry(m.wsChannels, num, c, r.wsChannels);
    assert Without([c] + m.webWsChannels, c) == Without(m.webWsChannels, c) by {
      assert ([c] + m.webWsChannels)[1..] == m.webWsChannels;
    }
  }

  /**
   A new browser client's channel `c` sends the client its slot number, then
   its channel identity; a refused message kills the channel and removes it
   from every index, and after a refused first message the second is not
   attempted.
   */
  function IdentifyBrowser(m: State, c: ChannelId, currentIdOk: bool, activeIdOk: bool): (r: EventResult)
    requires WellFormed(m) && c in m.heap && !m.heap[c].dead
    ensures var num := m.heap[c].clientNum;
            var current := WSChannel.SendTXT(num, CurrentIdText(num));
            var active := WSChannel.SendTXT(num, ActiveIdText(c));
            && r.calls == (if currentIdOk then [current, active] else [current])
            && (currentIdOk && activeIdOk ==> r.m == m)
            && (!(currentIdOk && activeIdOk) ==> ChannelRemoved(r.m, c))
            // the refusal is `removeChannel` of this channel, and only of it
            && (!(currentIdOk && activeIdOk) ==>
                  r.m == RemoveChannel(m, c).(heap := m.heap[c := m.heap[c].(dead := true)]))
    ensures r.m.heap == m.heap || r.m.heap == m.heap[c := m.heap[c].(dead := true)]
    ensures r.m.nextId == m.nextId
    ensures WellFormed(r.m)
  {
    var num := m.heap[c].clientNum;
    var s1 := SendTXT(m, c, CurrentIdText(num), currentIdOk);
    var s2 := SendTXT(s1.m, c, ActiveIdText(c), activeIdOk);
    EventResult(s2.m, s1.calls + s2.calls)
  }

  /**
   `handleEvent`: connect and disconnect as above; inbound text or binary
   data goes to the slot's channel `push` (silently dropped for an unknown
   slot); other event types are ignored.
   */
  function HandleEvent(m: State, e: Event): (r: EventResult)
    requires WellFormed(m)
    ensures e.Disconnected? ==> r == EventResult(RemoveChannelByNum(m, e.num), [])
    ensures e.Payload? && e.num !in m.wsChannels ==> r == EventResult(m, [])
    ensures e.Payload? && e.num in m.wsChannels ==>
              var c := m.wsChannels[e.num];
              && r.calls == []
              && r.m == m.(heap := m.heap[c := WSChannel.Push(m.heap[c], e.data).ch])
    ensures e.Connected? ==> r == HandleConnect(m, e.num, e.uri, e.currentIdOk, e.activeIdOk)
    ensures e.Other? ==> r == EventResult(m, [])
    ensures WellFormed(r.m)
  {
    match e
    case Connected(num, uri, ok1, ok2) => HandleConnect(m, num, uri, ok1, ok2)
    case Disconnected(num) => EventResult(RemoveChannelByNum(m, num), [])
    case Payload(num, data) =>
      if num in m.wsChannels then
        var c := m.wsChannels[num];
        EventResult(m.(heap := m.heap[c := WSChannel.Push(m.heap[c], data).ch]), [])
      else EventResult(m, [])
    case Other => EventResult(m, [])
  }

  /** A server that accepts every message. */
  function AlwaysOk(c: ChannelId): (r: bool) {
    true
  }

  /** Heartbeats over two live channels: one each, in list order. */
  lemma ExpectedPingsTwo(h: map<ChannelId, WSChannel.State>, c1: ChannelId, c2: ChannelId)
    requires c1 in h && c2 in h && !h[c1].dead && !h[c2].dead
    ensures ExpectedPings(h, [c1, c2])
              == [WSChannel.SendTXT(h[c1].clientNum, PingText(c1)), WSChannel.SendTXT(h[c2].clientNum, PingText(c2))]
  {
    var p1 := WSChannel.SendTXT(h[c1].clientNum, PingText(c1));
    var p2 := WSChannel.SendTXT(h[c2].clientNum, PingText(c2));
    assert [c2][1..] == [];
    assert ExpectedPings(h, [c2]) == [p2] + ExpectedPings(h, []);
    assert [c1, c2][1..] == [c2];
    assert ExpectedPings(h, [c1, c2]) == [p1] + ExpectedPings(h, [c2]);
  }

  /** A browser client whose identification gets through is put at the front of the list as a fresh channel. */
  lemma BrowserConnectShape(m: State, num: byte)
    requires WellFormed(m)
    ensures var r := HandleConnect(m, num, "/", true, true).m;
            && WellFormed(r) && r.nextId == m.nextId + 1
            && r.webWsChannels == [m.nextId] + m.webWsChannels
            && m.nextId in r.heap && r.heap[m.nextId] == WSChannel.Init(num)
            && (forall d :: d in m.heap ==> d in r.heap && r.heap[d] == m.heap[d])
  {
  }

  /** Two browser clients connecting in turn sit in the list newest first, each freshly created. */
  lemma TwoConnectsShape(m: State, num1: byte, num2: byte, a: State, b: State)
    requires WellFormed(m) && m.webWsChannels == []
    requires a == HandleConnect(m, num1, "/", true, true).m
    requires b == HandleConnect(a, num2, "/", true, true).m
    ensures WellFormed(b) && b.webWsChannels == [m.nextId + 1, m.nextId]
    ensures b.heap[m.nextId + 1] == WSChannel.Init(num2) && b.heap[m.nextId] == WSChannel.Init(num1)
  {
    BrowserConnectShape(m, num1);
    BrowserConnectShape(a, num2);
  }

  /** Heartbeats to two fresh browser clients: one each, newest first, each with its own identity. */
  lemma PingTwoFreshClients(b: State, c1: ChannelId, c2: ChannelId, num1: byte, num2: byte)
    requires WellFormed(b) && b.webWsChannels == [c2, c1] && c1 != c2
    requires b.heap[c2] == WSChannel.Init(num2) && b.heap[c1] == WSChannel.Init(num1)
    ensures SendPing(b, AlwaysOk).calls == [WSChannel.SendTXT(num2, PingText(c2)), WSChannel.SendTXT(num1, PingText(c1))]
  {
    PingEachReachesEachOnce(b, [c2, c1], AlwaysOk);
    ExpectedPingsTwo(b.heap, c2, c1);
  }

  /**
   Two browser clients connect to a server with no browser clients yet; one
   broadcast then sends exactly one heartbeat to each, newest first, each to
   its own slot and tagged with its own identity.
   */
  lemma TwoBrowserClientsGetOnePingEach(m: State, num1: byte, num2: byte, a: State, b: State)
    requires WellFormed(m) && m.webWsChannels == []
    requires a == HandleConnect(m, num1, "/", true, true).m
    requires b == HandleConnect(a, num2, "/", true, true).m
    ensures WellFormed(b)
    ensures SendPing(b, AlwaysOk).calls
              == [WSChannel.SendTXT(num2, PingText(m.nextId + 1)), WSChannel.SendTXT(num1, PingText(m.nextId))]
  {
    TwoConnectsShape(m, num1, num2, a, b);
    PingTwoFreshClients(b, m.nextId, m.nextId + 1, num1, num2);
  }
}

=== FILE: wschannels_invariant.dfy ===
/**
 Every multiplexer operation keeps the indices consistent with each other
 and with the channel registry (`WSChannels.Valid`).
 */
module WSChannelsInvariant {
  import opened Bytes
  import WSChannel
  import opened WSChannels

  lemma GetWSChannelKeepsValid(m: State, pageid: int)
    requires Valid(m)
    ensures Valid(GetWSChannel(m, pageid).m)
  {
  }

  lemma RemoveChannelKeepsValid(m: State, c: ChannelId)
    requires Valid(m)
    ensures Valid(RemoveChannel(m, c))
  {
    var r := RemoveChannel(m, c);
    WithoutKeepsDistinct(m.webWsChannels, c);
    forall d | d in r.webWsChannels
      ensures d in r.wsChannels.Values
    {
      var k :| k in m.wsChannels && m.wsChannels[k] == d;
      assert k in r.wsChannels && r.wsChannels[k] == d;
    }
  }

  lemma RemoveChannelByNumKeepsValid(m: State, num: byte)
    requires Valid(m)
    ensures Valid(RemoveChannelByNum(m, num))
  {
    if num in m.wsChannels {
      var c := m.wsChannels[num];
      var r := RemoveChannelByNum(m, num);
      WithoutKeepsDistinct(m.webWsChannels, c);
      forall d | d in r.webWsChannels
        ensures d in r.wsChannels.Values
      {
        var k :| k in m.wsChannels && m.wsChannels[k] == d;
        assert k != num;
        assert k in r.wsChannels && r.wsChannels[k] == d;
      }
      forall k | k in r.wsChannels
        ensures r.wsChannels[k] in r.registry
      {
        assert m.wsChannels[k] != c;
      }
    }
  }

  /** Marking a channel dead touches no index. */
  lemma KillInHeapKeepsValid(m: State, c: ChannelId)
    requires Valid(m) && c in m.heap
    ensures Valid(m.(heap := m.heap[c := m.heap[c].(dead := true)]))
  {
  }

  lemma SendTXTKeepsValid(m: State, c: ChannelId, text: string, ok: bool)
    requires Valid(m) && c in m.heap
    ensures Valid(SendTXT(m, c, text, ok).m)
  {
    if !m.heap[c].dead && !ok {
      var killed := m.(heap := m.heap[c := m.heap[c].(dead := true)]);
      KillInHeapKeepsValid(m, c);
      RemoveChannelKeepsValid(killed, c);
    }
  }

  lemma SendErrorKeepsValid(m: State, pageid: int, err: string, ok: bool)
    requires Valid(m)
    ensures Valid(SendError(m, pageid, err, ok).m)
  {
    var g := GetWSChannel(m, pageid);
    if g.found.Some? {
      SendTXTKeepsValid(g.m, g.found.value, err, ok);
    }
  }

  lemma RunGCodeKeepsValid(m: State, pageid: int, cmd: seq<byte>, isRT: byte -> bool)
    requires Valid(m)
    ensures Valid(RunGCode(m, pageid, cmd, isRT).m)
  {
  }

  lemma {:induction false} PingEachKeepsValid(m: State, cs: seq<ChannelId>, ok: ChannelId -> bool)
    requires Valid(m)
    requires forall c :: c in cs ==> c in m.heap
    ensures Valid(PingEach(m, cs, ok).m)
    decreases |cs|
  {
    if cs != [] {
      var s := SendTXT(m, cs[0], PingText(cs[0]), ok(cs[0]));
      SendTXTKeepsValid(m, cs[0], PingText(cs[0]), ok(cs[0]));
      PingEachKeepsValid(s.m, cs[1..], ok);
    }
  }

  lemma SendPingKeepsValid(m: State, ok: ChannelId -> bool)
    requires Valid(m)
    ensures Valid(SendPing(m, ok).m)
  {
    PingEachKeepsValid(m, m.webWsChannels, ok);
  }

  /** Registering a new channel under a free slot keeps the indices consistent. */
  lemma RegisterKeepsValid(m: State, num: byte)
    requires Valid(m) && num !in m.wsChannels
    ensures var c := m.nextId;
            Valid(m.(heap := m.heap[c := WSChannel.Init(num)],
                     registry := m.registry + {c},
                     wsChannels := m.wsChannels[num := c],
                     last := Some(c),
                     nextId := c + 1))
  {
    var c := m.nextId;
    var m1 := m.(heap := m.heap[c := WSChannel.Init(num)],
                 registry := m.registry + {c},
                 wsChannels := m.wsChannels[num := c],
                 last := Some(c),
                 nextId := c + 1);
    assert c !in m.heap;
    assert WellFormed(m1);
    forall k1, k2 | k1 in m1.wsChannels && k2 in m1.wsChannels && k1 != k2
      ensures m1.wsChannels[k1] != m1.wsChannels[k2]
    {
      if k1 != num && k2 != num {
        assert m1.wsChannels[k1] == m.wsChannels[k1] && m1.wsChannels[k2] == m.wsChannels[k2];
      }
    }
    forall d | d in m1.webWsChannels
      ensures d in m1.wsChannels.Values
    {
      var k :| k in m.wsChannels && m.wsChannels[k] == d;
      assert k != num && m1.wsChannels[k] == d;
    }
  }

  lemma HandleConnectKeepsValid(m: State, num: byte, uri: string, ok1: bool, ok2: bool)
    requires Valid(m) && num !in m.wsChannels
    ensures Valid(HandleConnect(m, num, uri, ok1, ok2).m)
  {
    var c := m.nextId;
    var m1 := m.(heap := m.heap[c := WSChannel.Init(num)],
                 registry := m.registry + {c},
                 wsChannels := m.wsChannels[num := c],
                 last := Some(c),
                 nextId := c + 1);
    RegisterKeepsValid(m, num);
    if uri == "/" {
      var m2 := m1.(webWsChannels := [c] + m.webWsChannels);
      assert c !in m.webWsChannels;
      assert Distinct(m2.webWsChannels);
      forall d | d in m2.webWsChannels
        ensures d in m2.wsChannels.Values
      {
        if d != c {
          assert d in m.webWsChannels && d in m1.webWsChannels;
        } else {
          assert m2.wsChannels[num] == c;
        }
      }
      assert Valid(m2);
      SendTXTKeepsValid(m2, c, CurrentIdText(num), ok1);
      var s1 := SendTXT(m2, c, CurrentIdText(num), ok1);
      SendTXTKeepsValid(s1.m, c, ActiveIdText(c), ok2);
    }
  }

  /**
   Server events keep the indices consistent, provided the server does not
   report a connection on a slot that is still connected.
   */
  lemma HandleEventKeepsValid(m: State, e: Event)
    requires Valid(m)
    requires e.Connected? ==> e.num !in m.wsChannels
    ensures Valid(HandleEvent(m, e).m)
  {
    match e
    case Connected(num, uri, ok1, ok2) =>
      HandleConnectKeepsValid(m, num, uri, ok1, ok2);
    case Disconnected(num) =>
      RemoveChannelByNumKeepsValid(m, num);
    case Payload(num, data) =>
    case Other =>
  }
}
